=== FILE: README.md ===
# Ad loading and mobile ad scaling, modelled in Dafny

This project models the decision logic of two browser scripts of a game-hosting site:

- `ads-manager.js` (`AdsManager`). It fetches an `ads.json` configuration and gates the page behind an anti-adblock overlay when a bait element is blocked. Otherwise it loads ad components in a fixed sequence: native banner, banners above and below the game iframe, sidebar banner, page-bottom banner, social bar, popunder and smartlink. A session record in session storage caps popunders per session and is meant to remember whether the smartlink was opened; as written it never records that, because its `window.open` call can never hand back a window (see Findings). A set of script URLs that have loaded, which starts empty on every page load, makes a later social-bar or popunder step of the same page skip a script that already loaded.
- `mobile-ad-scaler.js` (`MobileAdScaler`). It classifies elements as ads by substring tests and wraps an ad element in a `.mobile-ad-wrapper` div. On narrow viewports it applies inline fixes to wrapped ads. Its `init` runs its setup only once.

The DOM, timers, network and storage are abstracted away:
- The page is an immutable value. For the manager it is the banner containers, the sidebar and the overlay flag. For the scaler it is a tree of elements, where an element is addressed by its path of child indexes.
- Browser outcomes are inputs: which script URLs load, whether the popup blocker lets `window.open` open a window, `Date.now()`, the bait element's height and the viewport width.
- Session storage is a field of the modelled world. Writing the record and reading it back on the next page load returns the same record.
- Every step runs its deferred part (its `setTimeout` callback and `onload`) to completion before the next step starts. The model keeps the order in which `loadAllAds` calls the steps, not their millisecond delays, so the request log is in call order.
- Each request the page would make is appended to a request log: a script tag, a vendor banner tag with its global options name and options object, or a new window.

Modules:
- `Js` (`js.dfy`): optional properties and JavaScript's `||` / `??` defaulting.
- `Strings` (`strings.dfy`): `includes`, the `[^a-zA-Z0-9]` → `_` replacement, and decimal rendering.
- `VendorOptions` (`vendor_options.dfy`): the `atOptions_<zone>` object and its name.
- `AdsManager` (`ads_manager.dfy`): configuration, session record, every loading step, `init` and `destroy`.
- `AdsManagerProofs` (`ads_manager_proofs.dfy`): load order, the gate, and properties across page loads.
- `MobileAdScaler` (`mobile_ad_scaler.dfy`): the classifier, wrapping, `processAllAds` and `init`.

Behaviour of the code that the model keeps:
- Detection is one bait probe (`offsetHeight === 0`), not a threshold vote over several probes.
- There is no rotation, retry or fallback loop.
- A missing banner container is skipped, not created.
- An enabled banner slot without an `ads` array throws a `TypeError` inside `loadAllAds`. `init` catches it, so all later steps are skipped (`Run.completed == false`, outcome `AdsAborted`). A failing slot is therefore not isolated from the slots after it.

## Model

| member | source | states |
|---|---|---|
| AdsManager.NewManager | ads-manager.js:7-13 | a new manager has no config, no rotation timers, an empty loaded-script set, counter 0, and the session read from storage |
| AdsManager.GetSessionData | ads-manager.js:369-380 | a stored record is used as is; an absent, empty or unreadable entry yields `{popunderCount: 0, smartlinkOpened: false, sessionId: now}` |
| AdsManager.AntiAdblockEnabled | ads-manager.js:26 | the check is enabled when `antiAdblock` or its `enabled` flag is missing, and otherwise equals the flag (an explicit `false` is kept) |
| AdsManager.Init | ads-manager.js:15-41 | a failed fetch changes nothing; the outcome is `Gated` exactly when the check is enabled and the bait height is 0, and then the page differs only in the overlay flag, the manager only in its config, and nothing is requested; the outcome is `AdsLoaded` exactly when the page is not gated and no banner slot throws; otherwise the overlay flag is untouched; storage holds every session change, the loaded set only gains scripts that loaded, at most four zone ids are drawn, the popunder count never falls and rises by at most one to the cap, and the smartlink flag is never cleared; the flag changes only when the smartlink window opens and is handed back; as written it never changes, and with the corrected call a completed load with the smartlink due and popups allowed stores it as opened |
| AdsManagerProofs.InitGate | ads-manager.js:26-36 | gated: overlay up, no request, session and loaded set unchanged; not gated: the result is exactly that of `loadAllAds` on the manager holding the config, the outcome says whether it completed, the overlay is not up, and requests are in the order the steps are called |
| AdsManager.LoadAllAds | ads-manager.js:83-130 | it completes exactly when no enabled banner slot lacks an `ads` array; the request log only grows, every session change is saved, the loaded set only gains scripts that loaded, the counter rises by at most four, the count rises by at most one to the cap, the smartlink flag is never cleared, and the overlay flag, config and timers are unchanged; the flag changes only when the smartlink window opens and is handed back; as written it never changes, and with the corrected call a completed run with the smartlink due and popups allowed stores it as opened; what each step does in a completed run is stated by `LoadAllAdsRunsEachStep` |
| AdsManager.LoadBanners | ads-manager.js:91-114 | the four banner slots complete exactly when none of them throws; they leave the session, loaded set, storage and overlay flag unchanged, draw at most four zone ids and only append requests; what each slot requests is stated by `LoadBannersRunsEachSlot` |
| AdsManager.LoadTail | ads-manager.js:118-129 | social bar, popunder and smartlink leave the page and counter unchanged, add only loaded scripts to the loaded set, save every session change, raise the count by at most one to the cap and never clear the smartlink flag; the flag changes only when the smartlink window opens and is handed back; as written it never changes, and with the corrected call a due smartlink whose window opens is stored as opened; what each step does is stated by `LoadTailRunsEachStep` |
| AdsManagerProofs.LoadAllAdsInOrder | ads-manager.js:86-129 | the steps are called in the order native → above-iframe → below-iframe → sidebar → page-bottom → social bar → popunder → smartlink, and the logged requests follow that call order; after a throwing slot no social bar, popunder or smartlink request follows; an already opened once-per-session smartlink adds no request |
| AdsManagerProofs.LoadBannersInOrder | ads-manager.js:91-114 | the banner slots append their requests in page order |
| AdsManagerProofs.LoadTailInOrder | ads-manager.js:118-129 | social bar, popunder and smartlink are called in that order and log their requests in that order; an opened once-per-session smartlink appends nothing |
| AdsManagerProofs.LoadBannersRunsEachSlot | ads-manager.js:91-114 | when no slot throws, each slot that is enabled, lists an ad unit and has its container on the page gets a banner request for its first unit's script |
| AdsManagerProofs.LoadTailRunsEachStep | ads-manager.js:118-129 | a popunder below its cap with a `scripts` array raises the count by exactly one, an enabled social bar with an unloaded URL requests that URL, and a due smartlink requests its window |
| AdsManagerProofs.LoadAllAdsRunsEachStep | ads-manager.js:86-129 | in a run where no slot throws, an enabled native banner inserted with a script requests it, every serving banner slot requests its first unit, the social bar and smartlink request as above, and an enabled popunder below its cap with a `scripts` array raises the count by exactly one |
| AdsManagerProofs.AppendInOrder | ads-manager.js:86-129 | appending one component's requests after requests of no higher rank keeps the log ordered |
| AdsManager.BannerStep | ads-manager.js:92-114 | a missing or disabled slot is skipped; an enabled slot without `ads` throws and changes nothing; otherwise exactly one banner request is made iff `ads` is non-empty and the container exists, and it carries `ads[0]`'s script and the options built from `ads[0]`'s config |
| AdsManager.LoadSimpleBanner | ads-manager.js:133-229 | a missing ad unit or container is a no-op; otherwise the counter rises by one, the container is emptied down to the new zone id, and one banner request is made under the global name `atOptions_` + zone id with the built options and the unit's script |
| VendorOptions.BuildOptions | ads-manager.js:191-197 | each field is the configured value when truthy and the default otherwise (key `''`, format `'iframe'`, height 90, width 728), so a 0 or `''` also takes the default; height, width and format are never 0 or empty |
| VendorOptions.BuildOptionsStable | ads-manager.js:192-195 | feeding built options back in as a config reproduces them |
| VendorOptions.ZoneId | ads-manager.js:146 | the zone id starts with `invoke_` and holds only `[A-Za-z0-9_]` |
| VendorOptions.OptionsName | ads-manager.js:189 | the name is `atOptions_` followed by as many characters as the zone id; each is in `[A-Za-z0-9_]`, alphanumerics are kept in place and every other character becomes `_` |
| VendorOptions.OptionsNameIdempotent | ads-manager.js:189 | naming a sanitised id gives the same name as naming the id |
| VendorOptions.OptionsNameOfZoneId | ads-manager.js:146-189 | for generated zone ids the global name is `atOptions_` followed by the zone id verbatim |
| Strings.Sanitize | ads-manager.js:189 | same length; alphanumerics kept in place; every other character replaced by `_` |
| Strings.SanitizeWordChars | ads-manager.js:189 | the sanitised string holds only `[A-Za-z0-9_]` |
| Strings.SanitizeFixpoint | ads-manager.js:189 | sanitising leaves a string unchanged iff it holds only `[A-Za-z0-9_]` |
| Strings.SanitizeIdempotent | ads-manager.js:189 | sanitising twice equals sanitising once |
| Strings.NatToString | ads-manager.js:146 | the rendering of a counter or timestamp is a non-empty string of decimal digits, with no leading zero unless it is `0` itself |
| Strings.NatToStringValue | ads-manager.js:146 | the rendered digits denote the number rendered |
| AdsManager.LoadNativeBanner | ads-manager.js:233-276 | it acts iff enabled, the sidebar exists and holds no native banner; it then puts one native banner first in the sidebar and requests the script iff one is configured; it never touches the manager or the containers |
| AdsManagerProofs.NativeBannerOnce | ads-manager.js:239-243 | loading the native banner a second time changes nothing |
| AdsManager.LoadSocialBar | ads-manager.js:279-304 | one request is made iff enabled and the URL is non-empty and not yet loaded; the URL joins the loaded set only if it loads; otherwise nothing changes |
| AdsManagerProofs.SocialBarLoadsOnce | ads-manager.js:283-295 | once the social-bar script has loaded, a second call requests nothing |
| AdsManager.Cap | ads-manager.js:310 | the cap is `maxPerSession` when truthy and 1 when it is 0 or missing; it is never 0 |
| AdsManager.LoadPopunder | ads-manager.js:307-340 | at or above the cap nothing changes; below it, every configured URL not in the loaded set is requested in order, loaded URLs join the set, and the count becomes exactly the current count + 1 and is saved; a missing `scripts` array changes nothing |
| AdsManager.Unloaded | ads-manager.js:319-320 | the URLs kept are exactly the configured ones not in the loaded set, and all of them when none is loaded |
| AdsManager.UnloadedCounts | ads-manager.js:319-320 | a URL not in the loaded set is kept as many times as it is configured, and a loaded one not at all |
| AdsManager.UnloadedAppend | ads-manager.js:319-320 | filtering a concatenation is the concatenation of the filtered parts, so the kept URLs keep their configured order |
| AdsManagerProofs.PopunderSkipsLoaded | ads-manager.js:319-331 | no popunder request is for an already loaded URL, and a URL enters the set only if it was requested and loaded |
| AdsManager.LoadSmartlink | ads-manager.js:343-366 | with `once_per_session` and the flag set nothing changes; a window is requested iff enabled, not so blocked, and `openInNewTab`; the flag is set and saved only when `window.open` hands back the window: never as written, and with the corrected call exactly when a window is requested and popups are allowed; otherwise session and storage are unchanged, and a step that requests nothing changes nothing; the flag is never cleared |
| AdsManager.SmartlinkWindowNeverReturned | ads-manager.js:353-357 | `window.open` with the features `noopener,noreferrer` returns null whether or not the popup blocker lets the window open |
| AdsManager.Opened | ads-manager.js:353-363 | `if (newWindow)` passes exactly for the corrected call (no `noopener`/`noreferrer` features) with popups allowed; the as-written call never passes it |
| AdsManagerProofs.LoadTailWindows | ads-manager.js:118-129 | the tail requests one smartlink window when the smartlink is due and none otherwise |
| AdsManagerProofs.LoadAllAdsWindows | ads-manager.js:86-129 | `loadAllAds` requests one smartlink window exactly when it completes with the smartlink due |
| AdsManagerProofs.PageLoadWindows | ads-manager.js:15-41 | a page load requests one smartlink window exactly when it is not gated, no slot throws and the smartlink is due for the stored session |
| AdsManagerProofs.OpenedWindows | ads-manager.js:353-357 | the windows that actually open on a page load are at most those requested, and all of them exactly when popups are allowed or none was requested |
| AdsManagerProofs.SmartlinkNeverRecorded | ads-manager.js:353-363 | as written, after any sequence of page loads the stored smartlink flag is still unset |
| AdsManagerProofs.PageLoadOpensAsWritten | ads-manager.js:343-363 | as written, a page load that reaches the smartlink step with an enabled new-tab smartlink requests one window and leaves the flag unstored |
| AdsManagerProofs.SmartlinkOpensEveryLoad | ads-manager.js:343-363 | as written, a session of n page loads that each reach the smartlink step with an enabled new-tab smartlink calls `window.open` n times, once-per-session or not, and a window actually opens on every one of those loads whose browser allows popups |
| AdsManagerProofs.PageLoadOpensOnce | ads-manager.js:346-363 | with the corrected call, a page load requests at most one smartlink window and none once the session has one stored; a window that opens is stored, and the flag is stored only when a window opened, so a popup-blocked attempt is not recorded |
| AdsManagerProofs.SmartlinkAtMostOncePerSession | ads-manager.js:346-363 | with the corrected call, a once-per-session smartlink opens at most one window per session over any sequence of page loads, and none once it is stored |
| AdsManagerProofs.InitSkipsOpenedSmartlink | ads-manager.js:346-349 | with `once_per_session` and the flag already set, `init` makes no smartlink request |
| AdsManagerProofs.SmartlinkNotReopened | ads-manager.js:346-363 | with `once_per_session`, a page load whose stored record has the flag set makes no smartlink request |
| AdsManager.PopunderCount | ads-manager.js:311 | a missing count reads as 0, and any stored number, 0 included, reads as itself |
| AdsManagerProofs.PageLoad | ads-manager.js:412-425 | a page load's loaded set holds only scripts that loaded on that page, at most four zone ids are drawn, and a failed fetch leaves storage alone and requests nothing |
| AdsManagerProofs.PageLoadSession | ads-manager.js:310-337 | one page load never lowers the stored popunder count, raises it to at most max(old count, cap), and never clears the stored smartlink flag |
| AdsManagerProofs.PageLoadsSession | ads-manager.js:313-336 | over any number of page loads the stored count never decreases and ends ≤ max(initial count, cap); an opened smartlink stays recorded |
| AdsManager.Destroy | ads-manager.js:404-408 | rotation timers and the loaded set become empty; session, config and counter are unchanged |
| AdsManagerProofs.DestroyForgetsLoadedScripts | ads-manager.js:404-408 | after `destroy` an enabled social bar with a URL is requested again |
| Strings.ContainsExtended | mobile-ad-scaler.js:165-172 | a substring stays a substring when text is added on either side |
| Strings.ContainsPrefixOf | mobile-ad-scaler.js:166-167 | a string containing `t + v` contains `t` |
| MobileAdScaler.AdsContainsAd | mobile-ad-scaler.js:166-167 | any string that contains `ads` contains `ad` |
| MobileAdScaler.IsAdElement | mobile-ad-scaler.js:161-173 | an element is an ad iff src contains `ad`, id contains `ad` or `banner`, or className contains `adsbygoogle` or `ad-` (the `ads` test is subsumed) |
| MobileAdScaler.IsAdElementExtended | mobile-ad-scaler.js:165-172 | prepending or appending characters to src, id or className keeps an ad element an ad element |
| MobileAdScaler.WrapperIsAdElement | mobile-ad-scaler.js:161-173 | the `mobile-ad-wrapper` div is itself classified as an ad, so the observer hands it to `wrapAdElement` |
| MobileAdScaler.NewWrapper | mobile-ad-scaler.js:87-88 | the created div matches `.mobile-ad-wrapper` and holds just the element |
| MobileAdScaler.ApplyMobileFixes | mobile-ad-scaler.js:95-105 | only the fixed flag can change, and it is set iff the scaler is on mobile (or it was set already) |
| MobileAdScaler.InsideWrapper | mobile-ad-scaler.js:85 | `closest` finds a wrapper when the element itself or the document element is one |
| MobileAdScaler.WrapAt | mobile-ad-scaler.js:84-93 | wrapping keeps the document element's own properties and child count, and leaves the tree alone when the path leads to no element |
| MobileAdScaler.WrapNoOp | mobile-ad-scaler.js:84-85 | a null element, the document element, or an element that is or sits inside a wrapper is left alone |
| MobileAdScaler.WrapChanges | mobile-ad-scaler.js:84-93 | `wrapAdElement` changes the document exactly when the element is present, not the document element, and not in or inside a wrapper |
| MobileAdScaler.WrapReplacesParent | mobile-ad-scaler.js:84-93 | when it acts, wrapping replaces exactly the parent, and nothing else in the tree changes |
| MobileAdScaler.WrapPlacesWrapper | mobile-ad-scaler.js:87-92 | the wrapper takes the element's former index, the (fixed) element is its only child, the parent keeps its child count and every other sibling keeps its position |
| MobileAdScaler.WrapTwice | mobile-ad-scaler.js:85-90 | wrapping again, either the moved element or whatever now sits at its old index, changes nothing |
| MobileAdScaler.WrapOffMobileKeepsElement | mobile-ad-scaler.js:92-96 | off mobile the element moves into the wrapper unaltered |
| MobileAdScaler.ObserveAdded | mobile-ad-scaler.js:143-146 | handling an added element changes the document exactly when it is an ad element that wrapping acts on, and then the result is exactly the wrap of that element, which leaves it, fixed on mobile, as the only child of a new wrapper at its old index |
| MobileAdScaler.ObserverIgnoresOwnWrap | mobile-ad-scaler.js:143-146 | the wrapper a wrap inserts and the element it moves, reported back as added nodes, are handled without any change |
| MobileAdScaler.FixWrapped | mobile-ad-scaler.js:131-134 | the root keeps its properties, flag and number of children |
| MobileAdScaler.FixWrappedAt | mobile-ad-scaler.js:131-134 | the tree keeps its shape and every element's properties, and an element ends fixed iff it was fixed or is the first element child of a wrapper |
| MobileAdScaler.ProcessAllAds | mobile-ad-scaler.js:128-136 | `isMobile` becomes exactly `innerWidth ≤ 768`; above 768 the document is unchanged |
| MobileAdScaler.ProcessAllAdsTouchesFirstChildren | mobile-ad-scaler.js:128-136 | on mobile only fixed flags change, and exactly those of wrappers' first element children |
| MobileAdScaler.NewScaler | mobile-ad-scaler.js:5-9 | `isMobile` is exactly `innerWidth ≤ 768`; not initialised, nothing set up |
| MobileAdScaler.InitScaler | mobile-ad-scaler.js:11-26 | an initialised scaler is returned unchanged; otherwise one style sheet, the observer, one resize listener and one scan are added and the flag is set |
| MobileAdScaler.InitOnce | mobile-ad-scaler.js:11-26 | any number n ≥ 1 of `init` calls equals one call |
| MobileAdScaler.InitSetupCounts | mobile-ad-scaler.js:12-25 | after any number of calls there is exactly one style sheet, one resize listener and one scheduled scan |

## Left out

- Rotation: `rotationTimers` is never populated in this code. The model keeps the map only so that `destroy` can clear it.
- The bait probe itself (`offsetHeight` after 100 ms) depends on the browser's layout. Its height is an input, and `GateCloses` applies the `=== 0` test to it.
- `HasNativeBanner` looks at the sidebar's children, while `querySelector('.native-ad-banner')` searches all descendants; a `NativeAdBanner` block stands for a child that is or contains such an element.
- Rendering: the overlay markup, the `overflow: hidden` body style (folded into the overlay flag), container and label styles, the banner's `onerror` fallback markup, and the native banner's `html` markup. These are presentation only.
- Network and external calls: `fetch('ads.json')` and JSON parsing are a `None` config. `<script>` creation and its callbacks are the `loads` set. The popup blocker's decision is the `popupAllowed` bit; `window.open`'s result follows from it and the features string.
- Timing: every `delay`/`setTimeout` value and the configured `delay` fields. Steps are serialised in the order `loadAllAds` calls them. The requests themselves happen when each step's timer fires: with the default delays the smartlink window opens before the popunder scripts are inserted, and the configured `delay` fields of the social bar, popunder and smartlink can reorder those three further. The order lemmas are about call order only.
- The loaded set lives in one manager and starts empty on every page load, so it never stops a script from being requested again on a later page of the session. Within one popunder step a URL listed twice in `scripts` is requested twice, since the set is only read when the timer fires and `onload` comes later; `Unloaded` keeps such repetitions.
- One `Date.now()` value serves a whole run. Zone ids still differ through the counter, but their uniqueness is not claimed, because counter and timestamp concatenation can collide.
- Storage: write failures and JSON values that parse to something other than a record object. The JSON round-trip of the record is assumed.
- `filterUnityErrors`: it patches the global console and has nothing to model beyond two substring tests.
- The bootstrap at the end of each file is represented by `AdsManagerProofs.PageLoad`, which constructs a manager and runs `init`. The scaler's 2-second start delay is not modelled.
- `processExistingAds`: it needs a CSS selector engine and iterates a static node list while the tree changes under it.
- `setupMutationObserver`: `ObserveAdded` models the handling of one added element (`isAdElement`, then `wrapAdElement`). The query over the added element's descendants (`iframe, ins, div[id*="ad"]`) needs a selector engine and is not modelled, nor is the 100 ms timer or the batching of mutation records. The resize listener's scheduling is event-loop plumbing. `addMobileAdStyles` is a style sheet and is counted only.
- Text nodes are not modelled: `firstElementChild` is the first child.
- `className` values that are not strings (SVG elements), NaN and non-integer numbers.
- AdsManager.WindowReturned: the features string is searched for `noopener` and `noreferrer` as substrings rather than tokenised into `name=value` pairs; for the constant `noopener,noreferrer` both readings agree.
- The corrected smartlink call records nothing when the popup blocker stops the window, so a later page load of the session tries again. Only windows that actually open are bounded by `SmartlinkAtMostOncePerSession`; `window.open` calls under a blocker are not.
- Strings.Sanitize: works on Unicode scalar values, whereas JavaScript replaces per UTF-16 code unit. A character outside the BMP therefore becomes one `_` here but two in JavaScript. Generated zone ids are ASCII, so this does not affect them.

## Findings

| source | as written | input that shows it | evidently intended | confidence | as-written member | corrected member |
|---|---|---|---|---|---|---|
| ads-manager.js:353-361 | `window.open(url, '_blank', 'noopener,noreferrer')` returns null (the window open steps of the HTML Standard return null when `noopener` or `noreferrer` is given), so `if (newWindow)` never passes and `smartlinkOpened` is never set | a session of two page loads, each with the smartlink enabled, `openInNewTab` true and `frequency` `once_per_session`, not gated, with no throwing banner slot and popups allowed: both loads call `window.open`, and both windows open | call `window.open` without the `noopener,noreferrer` features, cut the opener link on the returned window, and record the smartlink once that window is handed back, so a once-per-session smartlink opens at most one window per session | high; not executed | AdsManagerProofs.SmartlinkOpensEveryLoad | AdsManagerProofs.SmartlinkAtMostOncePerSession |

The step is modelled both ways through `AdsManager.SmartlinkCall`: `WithNoopener` is the call as written, and `WithoutNoopener` the corrected call, which passes no features, so `window.open` hands back the window whenever the popup blocker allows it. The `if (newWindow)` recording is the same for both. Every member of the load sequence and every page-load lemma takes the call as a parameter, so each property above is stated for both unless a row says otherwise. `AdsManagerProofs.OpenedWindows` counts the windows that actually open: a requested window opens when popups are allowed, with either call.

=== FILE: ads_manager.dfy ===
/** The ad-loading policy of `AdsManager`: the anti-adblock gate, the fixed
    load sequence, the per-session popunder cap and smartlink flag, and the
    de-duplication of loaded scripts.

    The DOM, timers, network and storage are abstracted: the page is a value
    (`Page`), the outcome of every script load and the popup blocker's
    decision are inputs (`Env`), whether `window.open` hands back a window
    follows from that decision and the features passed, session storage is a field of the `World`, and each step's
    deferred part (its `setTimeout` callback and `onload` handler) runs to
    completion before the next step starts. Every request the page would send
    (a script tag, a vendor banner tag, a new window) is appended to the
    world's request log. */
module AdsManager {
  import opened Js
  import opened Strings
  import opened VendorOptions

  // ---------------------------------------------------------------------
  // Configuration document (`ads.json`)
  // ---------------------------------------------------------------------

  datatype AntiAdblockConfig = AntiAdblockConfig(enabled: Option<bool>)

  /** A banner slot; `ads` is missing when the document has no array there. */
  datatype BannerSlot = BannerSlot(enabled: bool, ads: Option<seq<AdUnit>>)

  datatype Banners = Banners(
    aboveIframe: Option<BannerSlot>,
    belowIframe: Option<BannerSlot>,
    pageBottom: Option<BannerSlot>)

  datatype NativeBannerConfig = NativeBannerConfig(enabled: bool, script: Option<string>)

  datatype SocialBarConfig = SocialBarConfig(enabled: bool, script: Option<string>)

  datatype PopunderConfig = PopunderConfig(
    enabled: bool,
    maxPerSession: Option<int>,
    scripts: Option<seq<string>>)

  datatype SmartlinkConfig = SmartlinkConfig(
    enabled: bool,
    frequency: Option<string>,
    openInNewTab: bool,
    url: string)

  datatype Config = Config(
    antiAdblock: Option<AntiAdblockConfig>,
    banners: Option<Banners>,
    sidebarAd: Option<BannerSlot>,
    nativeBanner: Option<NativeBannerConfig>,
    socialBar: Option<SocialBarConfig>,
    popunder: Option<PopunderConfig>,
    smartlink: Option<SmartlinkConfig>)

  const OncePerSession: string := "once_per_session"

  /** `config.antiAdblock?.enabled ?? true`: only a missing flag defaults, and
      it defaults to enabled. */
  function AntiAdblockEnabled(cfg: Config): (b: bool)
    ensures cfg.antiAdblock.None? ==> b
    ensures cfg.antiAdblock.Some? && cfg.antiAdblock.value.enabled.None? ==> b
    ensures cfg.antiAdblock.Some? && cfg.antiAdblock.value.enabled.Some? ==> b == cfg.antiAdblock.value.enabled.value
  {
    Nullish(if cfg.antiAdblock.Some? then cfg.antiAdblock.value.enabled else None, true)
  }

  function AboveSlot(cfg: Config): Option<BannerSlot> {
    if cfg.banners.Some? then cfg.banners.value.aboveIframe else None
  }

  function BelowSlot(cfg: Config): Option<BannerSlot> {
    if cfg.banners.Some? then cfg.banners.value.belowIframe else None
  }

  function BottomSlot(cfg: Config): Option<BannerSlot> {
    if cfg.banners.Some? then cfg.banners.value.pageBottom else None
  }

  /** `popunder.maxPerSession || 1`. */
  function Cap(p: PopunderConfig): (c: int)
    ensures !TruthyNumber(p.maxPerSession) ==> c == 1
    ensures TruthyNumber(p.maxPerSession) ==> c == p.maxPerSession.value
    ensures c != 0
  {
    OrNumber(p.maxPerSession, 1)
  }

  // ---------------------------------------------------------------------
  // Session record
  // ---------------------------------------------------------------------

  /** The record kept under the `adsSessionData` key. A parsed record may lack
      `popunderCount`; a missing `smartlinkOpened` reads as `false`. */
  datatype SessionRecord = SessionRecord(popunderCount: Option<int>, smartlinkOpened: bool, sessionId: int)

  /** What the storage key holds: nothing (or an empty string), something that
      cannot be read or parsed, or a record. */
  datatype Storage = Absent | Unreadable | Stored(record: SessionRecord)

  /** `getSessionData`: a stored record is used as it is; anything else yields
      a pending record stamped with the current time. */
  function GetSessionData(storage: Storage, now: nat): (s: SessionRecord)
    ensures storage.Stored? ==> s == storage.record
    ensures !storage.Stored? ==> s.popunderCount == Some(0) && !s.smartlinkOpened && s.sessionId == now
  {
    match storage
    case Stored(rec) => rec
    case _ => SessionRecord(Some(0), false, now)
  }

  /** `sessionData.popunderCount || 0`: a missing count reads as 0 and any
      stored number, 0 included, as itself. */
  function PopunderCount(s: SessionRecord): (c: int)
    ensures s.popunderCount.None? ==> c == 0
    ensures s.popunderCount.Some? ==> c == s.popunderCount.value
  {
    OrNumber(s.popunderCount, 0)
  }

  // ---------------------------------------------------------------------
  // Page, environment, requests and manager state
  // ---------------------------------------------------------------------

  /** A child of the sidebar: `NativeAdBanner` is a block that is, or
      contains, a `.native-ad-banner` element. */
  datatype SidebarBlock = NativeAdBanner | OtherBlock

  /** The parts of the document the manager reads or writes: the banner
      containers by id (each holding the zone ids rendered into it), the first
      `.sidebar` element's children, and whether the blocking overlay is up. */
  datatype Page = Page(
    containers: map<string, seq<string>>,
    sidebar: Option<seq<SidebarBlock>>,
    gated: bool)

  /** Outcomes of the browser's side of each step: which script URLs load,
      whether the popup blocker lets `window.open` open a window, and
      `Date.now()`. */
  datatype Env = Env(loads: set<string>, popupAllowed: bool, now: nat)

  /** The components `loadAllAds` requests, in its order. */
  datatype Component =
    | NativeBanner | AboveIframe | BelowIframe | SidebarBanner
    | PageBottom | SocialBar | Popunder | Smartlink

  function Rank(c: Component): nat {
    match c
    case NativeBanner => 0
    case AboveIframe => 1
    case BelowIframe => 2
    case SidebarBanner => 3
    case PageBottom => 4
    case SocialBar => 5
    case Popunder => 6
    case Smartlink => 7
  }

  datatype Request =
    | ScriptTag(from: Component, url: string)
    | BannerTag(from: Component, containerId: string, globalName: string, options: AtOptions, url: string)
    | OpenWindow(from: Component, url: string)

  /** The fields of an `AdsManager` instance. */
  datatype Manager = Manager(
    config: Option<Config>,
    rotationTimers: map<string, int>,
    session: SessionRecord,
    loadedScripts: set<string>,
    adCounter: nat)

  datatype World = World(manager: Manager, page: Page, storage: Storage, requests: seq<Request>)

  /** The constructor: no config, no timers, the session read from storage,
      nothing loaded, counter 0. */
  function NewManager(storage: Storage, now: nat): (m: Manager)
    ensures m.config.None? && m.rotationTimers == map[] && m.loadedScripts == {} && m.adCounter == 0
    ensures m.session == GetSessionData(storage, now)
  {
    Manager(None, map[], GetSessionData(storage, now), {}, 0)
  }

  /** `r` extends the request log of `w` with requests from `c` only. */
  predicate AppendsFrom(w: World, r: World, c: Component) {
    && w.requests <= r.requests
    && forall i :: |w.requests| <= i < |r.requests| ==> r.requests[i].from == c
  }

  /** Every session change is written back to storage. */
  predicate SavesChanges(w: World, r: World) {
    || (r.storage == w.storage && r.manager.session == w.manager.session)
    || r.storage == Stored(r.manager.session)
  }

  /** The popunder count does not fall and an opened smartlink stays opened. */
  predicate SessionGrows(a: SessionRecord, b: SessionRecord) {
    && PopunderCount(a) <= PopunderCount(b)
    && (a.smartlinkOpened ==> b.smartlinkOpened)
  }

  /** Nothing but the request log, the counter and the containers changes. */
  predicate KeepsSession(w: World, r: World) {
    && r.manager.session == w.manager.session
    && r.manager.loadedScripts == w.manager.loadedScripts
    && r.manager.config == w.manager.config
    && r.manager.rotationTimers == w.manager.rotationTimers
    && r.storage == w.storage
    && r.page.gated == w.page.gated
  }

  // ---------------------------------------------------------------------
  // Banners
  // ---------------------------------------------------------------------

  /** `loadSimpleBanner`: with an ad unit and an existing container, clear
      the container, give it a pending zone id, set the vendor options under
      `atOptions_<zone>` and request the unit's script. */
  function LoadSimpleBanner(w: World, c: Component, containerId: string, ad: Option<AdUnit>, env: Env): (r: World)
    ensures AppendsFrom(w, r, c) && KeepsSession(w, r)
    ensures r.page.containers.Keys == w.page.containers.Keys
    ensures ad.None? || containerId !in w.page.containers ==> r == w
    ensures ad.Some? && containerId in w.page.containers ==>
      var zone := ZoneId(w.manager.adCounter + 1, env.now);
      && r.requests == w.requests + [BannerTag(c, containerId, OptionsPrefix + zone, BuildOptions(ad.value.config), ad.value.script)]
      && r.page.containers == w.page.containers[containerId := [zone]]
      && r.page.sidebar == w.page.sidebar
      && r.manager.adCounter == w.manager.adCounter + 1
  {
    if ad.None? || containerId !in w.page.containers then w
    else
      var counter := w.manager.adCounter + 1;
      var zone := ZoneId(counter, env.now);
      OptionsNameOfZoneId(counter, env.now);
      var tag := BannerTag(c, containerId, OptionsName(zone), BuildOptions(ad.value.config), ad.value.script);
      w.(manager := w.manager.(adCounter := counter),
         page := w.page.(containers := w.page.containers[containerId := [zone]]),
         requests := w.requests + [tag])
  }

  /** The result of a step that can throw: `completed` is false when the step
      raised a `TypeError`, which ends `loadAllAds` early. */
  datatype Run = Run(world: World, completed: bool)

  /** An enabled slot without an `ads` array: reading `ads[0]` throws. */
  predicate Throws(slot: Option<BannerSlot>) {
    slot.Some? && slot.value.enabled && slot.value.ads.None?
  }

  /** No banner slot of the configuration throws. */
  predicate BannersComplete(cfg: Config) {
    !Throws(AboveSlot(cfg)) && !Throws(BelowSlot(cfg)) && !Throws(cfg.sidebarAd) && !Throws(BottomSlot(cfg))
  }

  /** One banner slot of `loadAllAds`: a disabled or missing slot is skipped,
      an enabled slot without an `ads` array throws, and otherwise only
      `ads[0]` is handed to `loadSimpleBanner`. */
  function BannerStep(w: World, c: Component, containerId: string, slot: Option<BannerSlot>, env: Env): (r: Run)
    ensures AppendsFrom(w, r.world, c) && KeepsSession(w, r.world)
    ensures r.world.page.containers.Keys == w.page.containers.Keys
    ensures !r.completed <==> Throws(slot)
    ensures slot.None? || !slot.value.enabled || !r.completed ==> r.world == w
    ensures r.world.manager.adCounter <= w.manager.adCounter + 1
    ensures |r.world.requests| <= |w.requests| + 1
    ensures |r.world.requests| == |w.requests| + 1 <==>
      && slot.Some? && slot.value.enabled && slot.value.ads.Some?
      && |slot.value.ads.value| > 0 && containerId in w.page.containers
    ensures |r.world.requests| == |w.requests| + 1 ==>
      var ad := slot.value.ads.value[0];
      && r.world.requests[|w.requests|].BannerTag?
      && r.world.requests[|w.requests|].url == ad.script
      && r.world.requests[|w.requests|].options == BuildOptions(ad.config)
  {
    if slot.None? || !slot.value.enabled then Run(w, true)
    else
      match slot.value.ads
      case None => Run(w, false)
      case Some(ads) =>
        var first := if |ads| > 0 then Some(ads[0]) else None;
        Run(LoadSimpleBanner(w, c, containerId, first, env), true)
  }

  // ---------------------------------------------------------------------
  // Native banner, social bar, popunder, smartlink
  // ---------------------------------------------------------------------

  predicate HasNativeBanner(blocks: seq<SidebarBlock>) {
    NativeAdBanner in blocks
  }

  /** `loadNativeBanner`: when enabled and the sidebar exists and does not
      yet hold a native banner, put one first in the sidebar and request the
      configured script, if any. */
  function LoadNativeBanner(w: World, cfg: Config): (r: World)
    ensures AppendsFrom(w, r, NativeBanner) && KeepsSession(w, r)
    ensures r.manager == w.manager && r.page.containers == w.page.containers
    ensures r.page.sidebar.Some? <==> w.page.sidebar.Some?
    ensures r.page.sidebar.Some? ==>
      (HasNativeBanner(r.page.sidebar.value) <==>
        HasNativeBanner(w.page.sidebar.value) || (cfg.nativeBanner.Some? && cfg.nativeBanner.value.enabled))
    ensures r != w <==>
      && cfg.nativeBanner.Some? && cfg.nativeBanner.value.enabled
      && w.page.sidebar.Some? && !HasNativeBanner(w.page.sidebar.value)
    ensures r != w ==> r.page.sidebar.value == [NativeAdBanner] + w.page.sidebar.value
    ensures |r.requests| == |w.requests| + 1 <==> r != w && TruthyString(cfg.nativeBanner.value.script)
    ensures |r.requests| == |w.requests| + 1 ==> r.requests[|w.requests|] == ScriptTag(NativeBanner, cfg.nativeBanner.value.script.value)
    ensures |r.requests| <= |w.requests| + 1
  {
    if cfg.nativeBanner.None? || !cfg.nativeBanner.value.enabled then w
    else if w.page.sidebar.None? then w
    else if HasNativeBanner(w.page.sidebar.value) then w
    else
      var nb := cfg.nativeBanner.value;
      var page := w.page.(sidebar := Some([NativeAdBanner] + w.page.sidebar.value));
      assert page != w.page by { assert |page.sidebar.value| != |w.page.sidebar.value|; }
      var tags := if TruthyString(nb.script) then [ScriptTag(NativeBanner, nb.script.value)] else [];
      w.(page := page, requests := w.requests + tags)
  }

  /** `loadSocialBar`: when enabled, request the configured URL unless it is
      empty or already loaded; the URL joins `loadedScripts` only if it loads. */
  function LoadSocialBar(w: World, cfg: Config, env: Env): (r: World)
    ensures AppendsFrom(w, r, SocialBar)
    ensures r.page == w.page && r.storage == w.storage && r.manager.session == w.manager.session
    ensures r.manager.adCounter == w.manager.adCounter && r.manager.config == w.manager.config
    ensures r.manager.rotationTimers == w.manager.rotationTimers
    ensures |r.requests| <= |w.requests| + 1
    ensures |r.requests| == |w.requests| + 1 <==>
      && cfg.socialBar.Some? && cfg.socialBar.value.enabled
      && TruthyString(cfg.socialBar.value.script)
      && cfg.socialBar.value.script.value !in w.manager.loadedScripts
    ensures |r.requests| == |w.requests| ==> r == w
    ensures r.manager.loadedScripts <= w.manager.loadedScripts + env.loads
    ensures |r.requests| == |w.requests| + 1 ==>
      var url := cfg.socialBar.value.script.value;
      && r.requests[|w.requests|] == ScriptTag(SocialBar, url)
      && r.manager.loadedScripts == w.manager.loadedScripts + (if url in env.loads then {url} else {})
  {
    if cfg.socialBar.None? || !cfg.socialBar.value.enabled then w
    else
      var url := cfg.socialBar.value.script;
      if !TruthyString(url) || url.value in w.manager.loadedScripts then w
      else
        var loaded := if url.value in env.loads then w.manager.loadedScripts + {url.value} else w.manager.loadedScripts;
        w.(manager := w.manager.(loadedScripts := loaded),
           requests := w.requests + [ScriptTag(SocialBar, url.value)])
  }

  /** The URLs of `urls`, in order and with repetitions, that are not in
      `loaded`: each is checked against the set as it stood when the timer
      fired, since `onload` runs only later. */
  function Unloaded(urls: seq<string>, loaded: set<string>): (r: seq<string>)
    ensures |r| <= |urls|
    ensures forall u :: u in r <==> u in urls && u !in loaded
    ensures (forall i :: 0 <= i < |urls| ==> urls[i] !in loaded) ==> r == urls
  {
    if urls == [] then []
    else (if urls[0] in loaded then [] else [urls[0]]) + Unloaded(urls[1..], loaded)
  }

  /** `Unloaded` keeps every occurrence of a URL that is not loaded and none
      of one that is: a URL listed twice is requested twice. */
  lemma {:induction false} UnloadedCounts(urls: seq<string>, loaded: set<string>)
    ensures forall u :: multiset(Unloaded(urls, loaded))[u] == if u in loaded then 0 else multiset(urls)[u]
    decreases |urls|
  {
    if urls != [] {
      assert urls == [urls[0]] + urls[1..];
      UnloadedCounts(urls[1..], loaded);
    }
  }

  /** Filtering a concatenation filters each part, so the URLs kept appear
      in their configured order. */
  lemma {:induction false} UnloadedAppend(a: seq<string>, b: seq<string>, loaded: set<string>)
    ensures Unloaded(a + b, loaded) == Unloaded(a, loaded) + Unloaded(b, loaded)
    decreases |a|
  {
    if a != [] {
      assert (a + b)[0] == a[0] && (a + b)[1..] == a[1..] + b;
      UnloadedAppend(a[1..], b, loaded);
    } else {
      assert a + b == b;
    }
  }

  function PopunderTags(urls: seq<string>): (tags: seq<Request>)
    ensures |tags| == |urls|
    ensures forall i :: 0 <= i < |urls| ==> tags[i] == ScriptTag(Popunder, urls[i])
  {
    seq(|urls|, i requires 0 <= i < |urls| => ScriptTag(Popunder, urls[i]))
  }

  /** `loadPopunder`: when enabled and the session's count is below the cap,
      request every configured script not yet loaded and raise the count by
      one; at or above the cap nothing happens. A missing `scripts` array
      throws in the timer callback before the count is written. */
  function LoadPopunder(w: World, cfg: Config, env: Env): (r: World)
    ensures AppendsFrom(w, r, Popunder) && SavesChanges(w, r)
    ensures r.page == w.page && r.manager.adCounter == w.manager.adCounter
    ensures r.manager.config == w.manager.config && r.manager.rotationTimers == w.manager.rotationTimers
    ensures r.manager.session.smartlinkOpened == w.manager.session.smartlinkOpened
    ensures r.manager.session.sessionId == w.manager.session.sessionId
    ensures r.manager.loadedScripts <= w.manager.loadedScripts + env.loads
    ensures cfg.popunder.None? || !cfg.popunder.value.enabled || cfg.popunder.value.scripts.None? ==> r == w
    ensures cfg.popunder.Some? && PopunderCount(w.manager.session) >= Cap(cfg.popunder.value) ==> r == w
    ensures
      && cfg.popunder.Some? && cfg.popunder.value.enabled && cfg.popunder.value.scripts.Some?
      && PopunderCount(w.manager.session) < Cap(cfg.popunder.value)
      ==>
      (var pending := Unloaded(cfg.popunder.value.scripts.value, w.manager.loadedScripts);
       && r.manager.session.popunderCount == Some(PopunderCount(w.manager.session) + 1)
       && r.storage == Stored(r.manager.session)
       && r.requests == w.requests + PopunderTags(pending)
       && r.manager.loadedScripts == w.manager.loadedScripts + (set u | u in pending && u in env.loads))
    ensures PopunderCount(r.manager.session) == PopunderCount(w.manager.session)
      || (cfg.popunder.Some? && PopunderCount(r.manager.session) == PopunderCount(w.manager.session) + 1 <= Cap(cfg.popunder.value))
  {
    if cfg.popunder.None? || !cfg.popunder.value.enabled then w
    else
      var p := cfg.popunder.value;
      var current := PopunderCount(w.manager.session);
      if current >= Cap(p) then w
      else if p.scripts.None? then w
      else
        var pending := Unloaded(p.scripts.value, w.manager.loadedScripts);
        var session := w.manager.session.(popunderCount := Some(current + 1));
        var loaded := w.manager.loadedScripts + (set u | u in pending && u in env.loads);
        w.(manager := w.manager.(session := session, loadedScripts := loaded),
           storage := Stored(session),
           requests := w.requests + PopunderTags(pending))
  }

  /** The `window.open` call the smartlink step makes. */
  datatype SmartlinkCall =
    | WithNoopener     // as written: features `noopener,noreferrer`
    | WithoutNoopener  // corrected: no features; the opener link is cut on the returned window instead

  /** The window features `loadSmartlink` passes to `window.open`. */
  const SmartlinkFeatures: string := "noopener,noreferrer"

  function FeaturesOf(mode: SmartlinkCall): string {
    match mode
    case WithNoopener => SmartlinkFeatures
    case WithoutNoopener => ""
  }

  /** Whether `window.open(url, '_blank', features)` hands back a window. The
      popup blocker must let the window open, and by the window open steps of
      the HTML Standard (section "Opening and closing windows") a `noopener` or
      `noreferrer` feature makes the call return null even then. */
  predicate WindowReturned(features: string, popupAllowed: bool) {
    popupAllowed && !Contains(features, "noopener") && !Contains(features, "noreferrer")
  }

  /** The smartlink's `window.open` call never hands back a window, whatever
      the popup blocker decides. */
  lemma SmartlinkWindowNeverReturned(popupAllowed: bool)
    ensures !WindowReturned(SmartlinkFeatures, popupAllowed)
  {
    assert OccursAt(SmartlinkFeatures, "noopener", 0);
  }

  /** `if (newWindow)`: whether the smartlink step sees the window it opened.
      As written it never does; without the features it does exactly when the
      popup blocker lets the window open. */
  function Opened(mode: SmartlinkCall, env: Env): (b: bool)
    ensures b <==> mode == WithoutNoopener && env.popupAllowed
  {
    SmartlinkWindowNeverReturned(env.popupAllowed);
    WindowReturned(FeaturesOf(mode), env.popupAllowed)
  }

  /** The smartlink step requests a window: the smartlink is enabled, opens in
      a new tab, and is not a once-per-session smartlink the session already
      opened. */
  predicate SmartlinkDue(cfg: Config, s: SessionRecord) {
    && cfg.smartlink.Some? && cfg.smartlink.value.enabled && cfg.smartlink.value.openInNewTab
    && !(cfg.smartlink.value.frequency == Some(OncePerSession) && s.smartlinkOpened)
  }

  /** `loadSmartlink`: unless a once-per-session smartlink was already opened,
      open the URL in a new tab when so configured, and record it as opened
      when the call hands back the window. */
  function LoadSmartlink(w: World, cfg: Config, env: Env, mode: SmartlinkCall): (r: World)
    ensures AppendsFrom(w, r, Smartlink) && SavesChanges(w, r)
    ensures r.page == w.page && r.manager.loadedScripts == w.manager.loadedScripts
    ensures r.manager.adCounter == w.manager.adCounter && r.manager.config == w.manager.config
    ensures r.manager.rotationTimers == w.manager.rotationTimers
    ensures r.manager.session.popunderCount == w.manager.session.popunderCount
    ensures r.manager.session.sessionId == w.manager.session.sessionId
    ensures w.manager.session.smartlinkOpened ==> r.manager.session.smartlinkOpened
    ensures r.manager.session.smartlinkOpened != w.manager.session.smartlinkOpened ==>
      Opened(mode, env) && SmartlinkDue(cfg, w.manager.session)
    ensures !(Opened(mode, env) && SmartlinkDue(cfg, w.manager.session)) ==>
      r.manager.session == w.manager.session && r.storage == w.storage
    ensures |r.requests| == |w.requests| ==> r == w
    ensures
      && cfg.smartlink.Some? && cfg.smartlink.value.frequency == Some(OncePerSession)
      && w.manager.session.smartlinkOpened
      ==> r == w
    ensures |r.requests| <= |w.requests| + 1
    ensures |r.requests| == |w.requests| + 1 <==> SmartlinkDue(cfg, w.manager.session)
    ensures |r.requests| == |w.requests| + 1 ==> r.requests[|w.requests|] == OpenWindow(Smartlink, cfg.smartlink.value.url)
    ensures |r.requests| == |w.requests| + 1 && Opened(mode, env) ==>
      r.manager.session.smartlinkOpened && r.storage == Stored(r.manager.session)
  {
    if cfg.smartlink.None? || !cfg.smartlink.value.enabled then w
    else
      var sl := cfg.smartlink.value;
      if sl.frequency == Some(OncePerSession) && w.manager.session.smartlinkOpened then w
      else if !sl.openInNewTab then w
      else
        var logged := w.requests + [OpenWindow(Smartlink, sl.url)];
        if Opened(mode, env) then
          var session := w.manager.session.(smartlinkOpened := true);
          w.(manager := w.manager.(session := session), storage := Stored(session), requests := logged)
        else
          w.(requests := logged)
  }

  // ---------------------------------------------------------------------
  // The load sequence, init and destroy
  // ---------------------------------------------------------------------

  /** `loadAllAds`: native banner, the three banner slots and the sidebar in
      page order, then social bar, popunder and smartlink. A slot that throws
      ends the sequence there. */
  function LoadAllAds(w: World, cfg: Config, env: Env, mode: SmartlinkCall): (r: Run)
    ensures r.completed <==> BannersComplete(cfg)
    ensures SavesChanges(w, r.world) && SessionGrows(w.manager.session, r.world.manager.session)
    ensures r.world.page.gated == w.page.gated
    ensures r.world.manager.config == w.manager.config
    ensures r.world.manager.rotationTimers == w.manager.rotationTimers
    ensures r.world.manager.loadedScripts <= w.manager.loadedScripts + env.loads
    ensures r.world.manager.adCounter <= w.manager.adCounter + 4
    ensures w.requests <= r.world.requests
    ensures PopunderCount(r.world.manager.session) == PopunderCount(w.manager.session)
      || (cfg.popunder.Some? && PopunderCount(r.world.manager.session) == PopunderCount(w.manager.session) + 1 <= Cap(cfg.popunder.value))
    ensures r.world.manager.session.smartlinkOpened != w.manager.session.smartlinkOpened ==>
      Opened(mode, env) && r.completed && SmartlinkDue(cfg, w.manager.session)
    ensures Opened(mode, env) && r.completed && SmartlinkDue(cfg, w.manager.session) ==>
      r.world.manager.session.smartlinkOpened && r.world.storage == Stored(r.world.manager.session)
  {
    var w1 := LoadNativeBanner(w, cfg);
    var r5 := LoadBanners(w1, cfg, env);
    if !r5.completed then r5 else Run(LoadTail(r5.world, cfg, env, mode), true)
  }

  /** The four banner slots of `loadAllAds`, in page order, stopping at the
      first that throws. */
  function LoadBanners(w: World, cfg: Config, env: Env): (r: Run)
    ensures KeepsSession(w, r.world) && w.requests <= r.world.requests
    ensures r.completed <==> BannersComplete(cfg)
    ensures r.world.manager.adCounter <= w.manager.adCounter + 4
  {
    var r2 := BannerStep(w, AboveIframe, "ad-above-iframe", AboveSlot(cfg), env);
    if !r2.completed then r2 else
    var r3 := BannerStep(r2.world, BelowIframe, "ad-below-iframe", BelowSlot(cfg), env);
    if !r3.completed then r3 else
    var r4 := BannerStep(r3.world, SidebarBanner, "ad-sidebar", cfg.sidebarAd, env);
    if !r4.completed then r4 else
    BannerStep(r4.world, PageBottom, "ad-page-bottom", BottomSlot(cfg), env)
  }

  /** The last three steps of `loadAllAds`: social bar, popunder, smartlink. */
  function LoadTail(w: World, cfg: Config, env: Env, mode: SmartlinkCall): (r: World)
    ensures SavesChanges(w, r) && SessionGrows(w.manager.session, r.manager.session)
    ensures r.page == w.page && w.requests <= r.requests
    ensures r.manager.config == w.manager.config && r.manager.rotationTimers == w.manager.rotationTimers
    ensures r.manager.loadedScripts <= w.manager.loadedScripts + env.loads
    ensures r.manager.adCounter == w.manager.adCounter
    ensures PopunderCount(r.manager.session) == PopunderCount(w.manager.session)
      || (cfg.popunder.Some? && PopunderCount(r.manager.session) == PopunderCount(w.manager.session) + 1 <= Cap(cfg.popunder.value))
    ensures r.manager.session.smartlinkOpened != w.manager.session.smartlinkOpened ==>
      Opened(mode, env) && SmartlinkDue(cfg, w.manager.session)
    ensures Opened(mode, env) && SmartlinkDue(cfg, w.manager.session) ==>
      r.manager.session.smartlinkOpened && r.storage == Stored(r.manager.session)
  {
    var w6 := LoadSocialBar(w, cfg, env);
    var w7 := LoadPopunder(w6, cfg, env);
    LoadSmartlink(w7, cfg, env, mode)
  }

  /** `init` gates the page: the anti-adblock check is on and the bait is
      blocked, which `detectAdBlock` decides by `offsetHeight === 0`. */
  predicate GateCloses(cfg: Config, baitHeight: int) {
    AntiAdblockEnabled(cfg) && baitHeight == 0
  }

  datatype Outcome = ConfigFailed | Gated | AdsLoaded | AdsAborted

  datatype InitResult = InitResult(outcome: Outcome, world: World)

  /** `init`: with the configuration document fetched (`None` when the fetch
      or the parse failed, which the catch swallows), gate the page when the
      anti-adblock check is enabled and the bait is blocked; otherwise run
      `loadAllAds`, whose `TypeError` the catch also swallows. */
  function Init(w: World, fetched: Option<Config>, baitHeight: int, env: Env, mode: SmartlinkCall): (r: InitResult)
    ensures fetched.None? ==> r.outcome == ConfigFailed && r.world == w
    ensures r.outcome == Gated <==> fetched.Some? && GateCloses(fetched.value, baitHeight)
    ensures r.outcome == AdsLoaded <==>
      fetched.Some? && !GateCloses(fetched.value, baitHeight) && BannersComplete(fetched.value)
    ensures r.outcome == Gated ==>
      && r.world.page == w.page.(gated := true)
      && r.world.requests == w.requests
      && r.world.storage == w.storage
      && r.world.manager == w.manager.(config := fetched)
    ensures r.outcome != Gated ==> r.world.page.gated == w.page.gated
    ensures SavesChanges(w, r.world) && SessionGrows(w.manager.session, r.world.manager.session)
    ensures r.world.manager.loadedScripts <= w.manager.loadedScripts + env.loads
    ensures r.world.manager.adCounter <= w.manager.adCounter + 4
    ensures PopunderCount(r.world.manager.session) == PopunderCount(w.manager.session)
      || (&& fetched.Some? && fetched.value.popunder.Some?
          && PopunderCount(r.world.manager.session) == PopunderCount(w.manager.session) + 1 <= Cap(fetched.value.popunder.value))
    ensures r.world.manager.session.smartlinkOpened != w.manager.session.smartlinkOpened ==>
      Opened(mode, env) && r.outcome == AdsLoaded && fetched.Some? && SmartlinkDue(fetched.value, w.manager.session)
    ensures Opened(mode, env) && r.outcome == AdsLoaded && fetched.Some? && SmartlinkDue(fetched.value, w.manager.session) ==>
      r.world.manager.session.smartlinkOpened && r.world.storage == Stored(r.world.manager.session)
  {
    if fetched.None? then InitResult(ConfigFailed, w)
    else
      var cfg := fetched.value;
      var w1 := w.(manager := w.manager.(config := Some(cfg)));
      if GateCloses(cfg, baitHeight) then
        InitResult(Gated, w1.(page := w1.page.(gated := true)))
      else
        var run := LoadAllAds(w1, cfg, env, mode);
        InitResult(if run.completed then AdsLoaded else AdsAborted, run.world)
  }

  /** `destroy`: clear every rotation timer and forget the loaded scripts. */
  function Destroy(m: Manager): (r: Manager)
    ensures r.rotationTimers == map[] && r.loadedScripts == {}
    ensures r.session == m.session && r.config == m.config && r.adCounter == m.adCounter
  {
    m.(rotationTimers := map[], loadedScripts := {})
  }
}

=== FILE: ads_manager_proofs.dfy ===
/** Properties of `AdsManager` that relate several steps or several page
    loads of one browser session. */
module AdsManagerProofs {
  import opened Js
  import opened VendorOptions
  import opened AdsManager

  /** Requests appear in the fixed component order. */
  predicate InFixedOrder(rs: seq<Request>) {
    forall i, j :: 0 <= i < j < |rs| ==> Rank(rs[i].from) <= Rank(rs[j].from)
  }

  /** Every request comes from a component of rank at most `k`. */
  predicate RanksAtMost(rs: seq<Request>, k: nat) {
    forall i :: 0 <= i < |rs| ==> Rank(rs[i].from) <= k
  }

  /** Appending requests of one component after requests of lower or equal
      rank keeps the log in order. */
  lemma AppendInOrder(w: World, r: World, c: Component)
    requires InFixedOrder(w.requests) && RanksAtMost(w.requests, Rank(c))
    requires AppendsFrom(w, r, c)
    ensures InFixedOrder(r.requests) && RanksAtMost(r.requests, Rank(c))
  {
  }

  lemma RanksWiden(rs: seq<Request>, k: nat, k': nat)
    requires RanksAtMost(rs, k) && k <= k'
    ensures RanksAtMost(rs, k')
  {
  }

  /** The social bar, popunder and smartlink steps append in order; a
      once-per-session smartlink already opened adds nothing. */
  lemma LoadTailInOrder(w: World, cfg: Config, env: Env, mode: SmartlinkCall)
    requires InFixedOrder(w.requests) && RanksAtMost(w.requests, Rank(PageBottom))
    ensures InFixedOrder(LoadTail(w, cfg, env, mode).requests)
    ensures
      && cfg.smartlink.Some? && cfg.smartlink.value.frequency == Some(OncePerSession)
      && w.manager.session.smartlinkOpened
      ==> RanksAtMost(LoadTail(w, cfg, env, mode).requests, Rank(Popunder))
  {
    RanksWiden(w.requests, Rank(PageBottom), Rank(SocialBar));
    var w6 := LoadSocialBar(w, cfg, env);
    AppendInOrder(w, w6, SocialBar);
    RanksWiden(w6.requests, Rank(SocialBar), Rank(Popunder));
    var w7 := LoadPopunder(w6, cfg, env);
    AppendInOrder(w6, w7, Popunder);
    RanksWiden(w7.requests, Rank(Popunder), Rank(Smartlink));
    var w8 := LoadSmartlink(w7, cfg, env, mode);
    AppendInOrder(w7, w8, Smartlink);
    assert LoadTail(w, cfg, env, mode) == w8;
  }

  /** The four banner slots append in page order. */
  lemma LoadBannersInOrder(w: World, cfg: Config, env: Env)
    requires InFixedOrder(w.requests) && RanksAtMost(w.requests, Rank(NativeBanner))
    ensures InFixedOrder(LoadBanners(w, cfg, env).world.requests)
    ensures RanksAtMost(LoadBanners(w, cfg, env).world.requests, Rank(PageBottom))
  {
    RanksWiden(w.requests, Rank(NativeBanner), Rank(AboveIframe));
    var r2 := BannerStep(w, AboveIframe, "ad-above-iframe", AboveSlot(cfg), env);
    AppendInOrder(w, r2.world, AboveIframe);
    RanksWiden(r2.world.requests, Rank(AboveIframe), Rank(BelowIframe));
    var r3 := BannerStep(r2.world, BelowIframe, "ad-below-iframe", BelowSlot(cfg), env);
    AppendInOrder(r2.world, r3.world, BelowIframe);
    RanksWiden(r3.world.requests, Rank(BelowIframe), Rank(SidebarBanner));
    var r4 := BannerStep(r3.world, SidebarBanner, "ad-sidebar", cfg.sidebarAd, env);
    AppendInOrder(r3.world, r4.world, SidebarBanner);
    RanksWiden(r4.world.requests, Rank(SidebarBanner), Rank(PageBottom));
    var r5 := BannerStep(r4.world, PageBottom, "ad-page-bottom", BottomSlot(cfg), env);
    AppendInOrder(r4.world, r5.world, PageBottom);
  }

  /** `loadAllAds` calls its steps in the order native, above-iframe,
      below-iframe, sidebar, page-bottom, social bar, popunder, smartlink, so
      the requests they issue are logged in that order; when a slot throws,
      nothing after the banners is requested. */
  lemma LoadAllAdsInOrder(w: World, cfg: Config, env: Env, mode: SmartlinkCall)
    requires w.requests == []
    ensures InFixedOrder(LoadAllAds(w, cfg, env, mode).world.requests)
    ensures !LoadAllAds(w, cfg, env, mode).completed ==>
      RanksAtMost(LoadAllAds(w, cfg, env, mode).world.requests, Rank(PageBottom))
    ensures
      && cfg.smartlink.Some? && cfg.smartlink.value.frequency == Some(OncePerSession)
      && w.manager.session.smartlinkOpened
      ==> RanksAtMost(LoadAllAds(w, cfg, env, mode).world.requests, Rank(Popunder))
  {
    var w1 := LoadNativeBanner(w, cfg);
    AppendInOrder(w, w1, NativeBanner);
    var r5 := LoadBanners(w1, cfg, env);
    LoadBannersInOrder(w1, cfg, env);
    if r5.completed {
      LoadTailInOrder(r5.world, cfg, env, mode);
    } else {
      RanksWiden(r5.world.requests, Rank(PageBottom), Rank(Popunder));
    }
  }

  // ---------------------------------------------------------------------
  // Every step of a completed run does its work
  // ---------------------------------------------------------------------

  /** A banner slot that is enabled, lists at least one ad unit and has its
      container on the page. */
  predicate SlotServes(slot: Option<BannerSlot>, containerId: string, page: Page) {
    && slot.Some? && slot.value.enabled && slot.value.ads.Some?
    && |slot.value.ads.value| > 0 && containerId in page.containers
  }

  /** `rs` holds a vendor banner tag from `c` for the script `url`. */
  predicate BannerRequested(rs: seq<Request>, c: Component, url: string) {
    exists i :: 0 <= i < |rs| && rs[i].BannerTag? && rs[i].from == c && rs[i].url == url
  }

  /** The native banner step inserts a banner and has a script to request. */
  predicate NativeBannerDue(cfg: Config, page: Page) {
    && cfg.nativeBanner.Some? && cfg.nativeBanner.value.enabled
    && page.sidebar.Some? && !HasNativeBanner(page.sidebar.value)
    && TruthyString(cfg.nativeBanner.value.script)
  }

  /** The social bar step has a URL it has not loaded yet. */
  predicate SocialBarDue(cfg: Config, loaded: set<string>) {
    && cfg.socialBar.Some? && cfg.socialBar.value.enabled
    && TruthyString(cfg.socialBar.value.script)
    && cfg.socialBar.value.script.value !in loaded
  }

  /** The popunder step runs below its cap with a `scripts` array. */
  predicate PopunderDue(cfg: Config, s: SessionRecord) {
    && cfg.popunder.Some? && cfg.popunder.value.enabled && cfg.popunder.value.scripts.Some?
    && PopunderCount(s) < Cap(cfg.popunder.value)
  }

  lemma BannerRequestedKept(rs: seq<Request>, rs': seq<Request>, c: Component, url: string)
    requires rs <= rs' && BannerRequested(rs, c, url)
    ensures BannerRequested(rs', c, url)
  {
    var i :| 0 <= i < |rs| && rs[i].BannerTag? && rs[i].from == c && rs[i].url == url;
    assert rs'[i] == rs[i];
  }

  lemma RequestKept(x: Request, rs: seq<Request>, rs': seq<Request>)
    requires rs <= rs' && x in rs
    ensures x in rs'
  {
    var i :| 0 <= i < |rs| && rs[i] == x;
    assert rs'[i] == x;
  }

  lemma ServesKept(slot: Option<BannerSlot>, containerId: string, p: Page, p': Page)
    requires p.containers.Keys == p'.containers.Keys
    ensures SlotServes(slot, containerId, p) <==> SlotServes(slot, containerId, p')
  {
  }

  /** A slot that serves requests its first ad unit's script. */
  lemma BannerStepRuns(w: World, c: Component, containerId: string, slot: Option<BannerSlot>, env: Env)
    requires SlotServes(slot, containerId, w.page)
    ensures BannerRequested(BannerStep(w, c, containerId, slot, env).world.requests, c, slot.value.ads.value[0].script)
  {
    var rs := BannerStep(w, c, containerId, slot, env).world.requests;
    assert rs[|w.requests|].BannerTag? && rs[|w.requests|].from == c;
  }

  /** When no slot throws, every slot that serves has its first ad unit's
      script requested into its container. */
  lemma LoadBannersRunsEachSlot(w: World, cfg: Config, env: Env)
    requires BannersComplete(cfg)
    ensures var rs := LoadBanners(w, cfg, env).world.requests;
      && (SlotServes(AboveSlot(cfg), "ad-above-iframe", w.page) ==>
          BannerRequested(rs, AboveIframe, AboveSlot(cfg).value.ads.value[0].script))
      && (SlotServes(BelowSlot(cfg), "ad-below-iframe", w.page) ==>
          BannerRequested(rs, BelowIframe, BelowSlot(cfg).value.ads.value[0].script))
      && (SlotServes(cfg.sidebarAd, "ad-sidebar", w.page) ==>
          BannerRequested(rs, SidebarBanner, cfg.sidebarAd.value.ads.value[0].script))
      && (SlotServes(BottomSlot(cfg), "ad-page-bottom", w.page) ==>
          BannerRequested(rs, PageBottom, BottomSlot(cfg).value.ads.value[0].script))
  {
    var r2 := BannerStep(w, AboveIframe, "ad-above-iframe", AboveSlot(cfg), env);
    var r3 := BannerStep(r2.world, BelowIframe, "ad-below-iframe", BelowSlot(cfg), env);
    var r4 := BannerStep(r3.world, SidebarBanner, "ad-sidebar", cfg.sidebarAd, env);
    var r5 := BannerStep(r4.world, PageBottom, "ad-page-bottom", BottomSlot(cfg), env);
    assert LoadBanners(w, cfg, env) == r5;
    ServesKept(BelowSlot(cfg), "ad-below-iframe", w.page, r2.world.page);
    ServesKept(cfg.sidebarAd, "ad-sidebar", w.page, r3.world.page);
    ServesKept(BottomSlot(cfg), "ad-page-bottom", w.page, r4.world.page);
    if SlotServes(AboveSlot(cfg), "ad-above-iframe", w.page) {
      var url := AboveSlot(cfg).value.ads.value[0].script;
      BannerStepRuns(w, AboveIframe, "ad-above-iframe", AboveSlot(cfg), env);
      BannerRequestedKept(r2.world.requests, r3.world.requests, AboveIframe, url);
      BannerRequestedKept(r3.world.requests, r4.world.requests, AboveIframe, url);
      BannerRequestedKept(r4.world.requests, r5.world.requests, AboveIframe, url);
    }
    if SlotServes(BelowSlot(cfg), "ad-below-iframe", w.page) {
      var url := BelowSlot(cfg).value.ads.value[0].script;
      BannerStepRuns(r2.world, BelowIframe, "ad-below-iframe", BelowSlot(cfg), env);
      BannerRequestedKept(r3.world.requests, r4.world.requests, BelowIframe, url);
      BannerRequestedKept(r4.world.requests, r5.world.requests, BelowIframe, url);
    }
    if SlotServes(cfg.sidebarAd, "ad-sidebar", w.page) {
      var url := cfg.sidebarAd.value.ads.value[0].script;
      BannerStepRuns(r3.world, SidebarBanner, "ad-sidebar", cfg.sidebarAd, env);
      BannerRequestedKept(r4.world.requests, r5.world.requests, SidebarBanner, url);
    }
    if SlotServes(BottomSlot(cfg), "ad-page-bottom", w.page) {
      BannerStepRuns(r4.world, PageBottom, "ad-page-bottom", BottomSlot(cfg), env);
    }
  }

  /** The tail's steps each do their work: a popunder below its cap raises
      the count by exactly one, an unloaded social bar URL is requested, and a
      due smartlink's window is requested. */
  lemma LoadTailRunsEachStep(w: World, cfg: Config, env: Env, mode: SmartlinkCall)
    ensures var r := LoadTail(w, cfg, env, mode);
      && (PopunderDue(cfg, w.manager.session) ==>
          PopunderCount(r.manager.session) == PopunderCount(w.manager.session) + 1)
      && (SocialBarDue(cfg, w.manager.loadedScripts) ==>
          ScriptTag(SocialBar, cfg.socialBar.value.script.value) in r.requests)
      && (SmartlinkDue(cfg, w.manager.session) ==>
          OpenWindow(Smartlink, cfg.smartlink.value.url) in r.requests)
  {
    var w6 := LoadSocialBar(w, cfg, env);
    var w7 := LoadPopunder(w6, cfg, env);
    var w8 := LoadSmartlink(w7, cfg, env, mode);
    assert LoadTail(w, cfg, env, mode) == w8;
    if SocialBarDue(cfg, w.manager.loadedScripts) {
      var x := ScriptTag(SocialBar, cfg.socialBar.value.script.value);
      assert w6.requests[|w.requests|] == x;
      RequestKept(x, w6.requests, w7.requests);
      RequestKept(x, w7.requests, w8.requests);
    }
    if SmartlinkDue(cfg, w.manager.session) {
      assert w8.requests[|w7.requests|] == OpenWindow(Smartlink, cfg.smartlink.value.url);
    }
  }

  /** A run in which no banner slot throws does the work of every step:
      the native banner's script, each serving slot's banner, an unloaded
      social bar URL, a popunder below its cap (count raised by exactly one)
      and a due smartlink's window. */
  lemma LoadAllAdsRunsEachStep(w: World, cfg: Config, env: Env, mode: SmartlinkCall)
    requires BannersComplete(cfg)
    ensures var rs := LoadAllAds(w, cfg, env, mode).world.requests;
      && (NativeBannerDue(cfg, w.page) ==> ScriptTag(NativeBanner, cfg.nativeBanner.value.script.value) in rs)
      && (SlotServes(AboveSlot(cfg), "ad-above-iframe", w.page) ==>
          BannerRequested(rs, AboveIframe, AboveSlot(cfg).value.ads.value[0].script))
      && (SlotServes(BelowSlot(cfg), "ad-below-iframe", w.page) ==>
          BannerRequested(rs, BelowIframe, BelowSlot(cfg).value.ads.value[0].script))
      && (SlotServes(cfg.sidebarAd, "ad-sidebar", w.page) ==>
          BannerRequested(rs, SidebarBanner, cfg.sidebarAd.value.ads.value[0].script))
      && (SlotServes(BottomSlot(cfg), "ad-page-bottom", w.page) ==>
          BannerRequested(rs, PageBottom, BottomSlot(cfg).value.ads.value[0].script))
      && (SocialBarDue(cfg, w.manager.loadedScripts) ==>
          ScriptTag(SocialBar, cfg.socialBar.value.script.value) in rs)
      && (SmartlinkDue(cfg, w.manager.session) ==>
          OpenWindow(Smartlink, cfg.smartlink.value.url) in rs)
    ensures PopunderDue(cfg, w.manager.session) ==>
      PopunderCount(LoadAllAds(w, cfg, env, mode).world.manager.session) == PopunderCount(w.manager.session) + 1
  {
    var w1 := LoadNativeBanner(w, cfg);
    var r5 := LoadBanners(w1, cfg, env);
    var w8 := LoadTail(r5.world, cfg, env, mode);
    assert LoadAllAds(w, cfg, env, mode).world == w8;
    assert w1.page.containers == w.page.containers;
    LoadBannersRunsEachSlot(w1, cfg, env);
    LoadTailRunsEachStep(r5.world, cfg, env, mode);
    var rs := w8.requests;
    if NativeBannerDue(cfg, w.page) {
      var x := ScriptTag(NativeBanner, cfg.nativeBanner.value.script.value);
      assert w1.requests[|w.requests|] == x;
      RequestKept(x, w1.requests, r5.world.requests);
      RequestKept(x, r5.world.requests, rs);
    }
    if SlotServes(AboveSlot(cfg), "ad-above-iframe", w.page) {
      BannerRequestedKept(r5.world.requests, rs, AboveIframe, AboveSlot(cfg).value.ads.value[0].script);
    }
    if SlotServes(BelowSlot(cfg), "ad-below-iframe", w.page) {
      BannerRequestedKept(r5.world.requests, rs, BelowIframe, BelowSlot(cfg).value.ads.value[0].script);
    }
    if SlotServes(cfg.sidebarAd, "ad-sidebar", w.page) {
      BannerRequestedKept(r5.world.requests, rs, SidebarBanner, cfg.sidebarAd.value.ads.value[0].script);
    }
    if SlotServes(BottomSlot(cfg), "ad-page-bottom", w.page) {
      BannerRequestedKept(r5.world.requests, rs, PageBottom, BottomSlot(cfg).value.ads.value[0].script);
    }
  }

  /** The gate: with anti-adblock enabled (a missing flag counts as enabled)
      and the bait blocked, the page is gated and no ad-loading step runs;
      otherwise the load sequence runs and its requests are in order. */
  lemma InitGate(w: World, fetched: Option<Config>, baitHeight: int, env: Env, mode: SmartlinkCall)
    requires fetched.Some? && w.requests == [] && !w.page.gated
    ensures var r := Init(w, fetched, baitHeight, env, mode);
      if AntiAdblockEnabled(fetched.value) && baitHeight == 0 then
        r.outcome == Gated && r.world.page.gated && r.world.requests == []
        && r.world.manager.session == w.manager.session
        && r.world.manager.loadedScripts == w.manager.loadedScripts
      else
        var run := LoadAllAds(w.(manager := w.manager.(config := fetched)), fetched.value, env, mode);
        && r.outcome == (if run.completed then AdsLoaded else AdsAborted)
        && r.world == run.world
        && !r.world.page.gated
        && InFixedOrder(r.world.requests)
  {
    var cfg := fetched.value;
    if !(AntiAdblockEnabled(cfg) && baitHeight == 0) {
      LoadAllAdsInOrder(w.(manager := w.manager.(config := Some(cfg))), cfg, env, mode);
    }
  }

  // ---------------------------------------------------------------------
  // Page loads within one session
  // ---------------------------------------------------------------------

  /** The browser-side inputs of one page load. */
  datatype Visit = Visit(fetched: Option<Config>, baitHeight: int, page: Page, env: Env)

  /** One page load: the script's bootstrap builds a new manager, which
      reads the session from storage, and runs `init`. The loaded set starts
      empty, so it only ever holds scripts that loaded during this page, and
      at most the four banner slots draw a zone id. */
  function PageLoad(storage: Storage, v: Visit, mode: SmartlinkCall): (r: InitResult)
    ensures r.world.manager.loadedScripts <= v.env.loads
    ensures r.world.manager.adCounter <= 4
    ensures v.fetched.None? ==> r.outcome == ConfigFailed && r.world.storage == storage && r.world.requests == []
  {
    var m := NewManager(storage, v.env.now);
    Init(World(m, v.page, storage, []), v.fetched, v.baitHeight, v.env, mode)
  }

  /** The storage after a sequence of page loads. */
  function PageLoads(storage: Storage, vs: seq<Visit>, mode: SmartlinkCall): Storage
    decreases |vs|
  {
    if vs == [] then storage else PageLoads(PageLoad(storage, vs[0], mode).world.storage, vs[1..], mode)
  }

  /** The popunder count a new manager would read from storage. */
  function StoredCount(storage: Storage): int {
    PopunderCount(GetSessionData(storage, 0))
  }

  /** The smartlink flag a new manager would read from storage. */
  predicate StoredOpened(storage: Storage) {
    GetSessionData(storage, 0).smartlinkOpened
  }

  /** The visit's configuration caps popunders at no more than `m`. */
  predicate CapAtMost(v: Visit, m: int) {
    v.fetched.None? || v.fetched.value.popunder.None? || Cap(v.fetched.value.popunder.value) <= m
  }

  function Max(a: int, b: int): int {
    if a < b then b else a
  }

  /** One page load never lowers the stored popunder count, raises it at
      most to the cap, and never clears the stored smartlink flag. */
  lemma PageLoadSession(storage: Storage, v: Visit, m: int, mode: SmartlinkCall)
    requires CapAtMost(v, m)
    ensures var after := PageLoad(storage, v, mode).world.storage;
      && StoredCount(storage) <= StoredCount(after) <= Max(StoredCount(storage), m)
      && (StoredOpened(storage) ==> StoredOpened(after))
  {
  }

  /** Across any number of page loads in one session the stored popunder
      count never decreases and ends at most at the larger of its initial
      value and the cap; an opened smartlink stays recorded as opened. */
  lemma {:induction false} PageLoadsSession(storage: Storage, vs: seq<Visit>, m: int, mode: SmartlinkCall)
    requires forall i :: 0 <= i < |vs| ==> CapAtMost(vs[i], m)
    ensures StoredCount(storage) <= StoredCount(PageLoads(storage, vs, mode)) <= Max(StoredCount(storage), m)
    ensures StoredOpened(storage) ==> StoredOpened(PageLoads(storage, vs, mode))
    decreases |vs|
  {
    if vs != [] {
      var next := PageLoad(storage, vs[0], mode).world.storage;
      PageLoadSession(storage, vs[0], m, mode);
      assert forall i :: 0 <= i < |vs[1..]| ==> CapAtMost(vs[1..][i], m) by {
        forall i | 0 <= i < |vs[1..]| ensures CapAtMost(vs[1..][i], m) {
          assert vs[1..][i] == vs[i + 1];
        }
      }
      PageLoadsSession(next, vs[1..], m, mode);
    }
  }

  /** `init` with a once-per-session smartlink already opened requests
      nothing from the smartlink step. */
  lemma InitSkipsOpenedSmartlink(w: World, fetched: Option<Config>, baitHeight: int, env: Env, mode: SmartlinkCall)
    requires w.requests == [] && w.manager.session.smartlinkOpened
    requires fetched.Some? && fetched.value.smartlink.Some?
    requires fetched.value.smartlink.value.frequency == Some(OncePerSession)
    ensures RanksAtMost(Init(w, fetched, baitHeight, env, mode).world.requests, Rank(Popunder))
  {
    var cfg := fetched.value;
    if !GateCloses(cfg, baitHeight) {
      LoadAllAdsInOrder(w.(manager := w.manager.(config := Some(cfg))), cfg, env, mode);
    }
  }

  /** A once-per-session smartlink recorded as opened is never opened again
      in a later page load of the session. */
  lemma SmartlinkNotReopened(storage: Storage, v: Visit, mode: SmartlinkCall)
    requires StoredOpened(storage)
    requires v.fetched.Some? && v.fetched.value.smartlink.Some?
    requires v.fetched.value.smartlink.value.frequency == Some(OncePerSession)
    ensures forall i :: 0 <= i < |PageLoad(storage, v, mode).world.requests| ==>
      PageLoad(storage, v, mode).world.requests[i].from != Smartlink
  {
    var w := World(NewManager(storage, v.env.now), v.page, storage, []);
    PageLoadIsInit(storage, v, mode);
    InitSkipsOpenedSmartlink(w, v.fetched, v.baitHeight, v.env, mode);
    NoSmartlinkBelowPopunder(PageLoad(storage, v, mode).world.requests);
  }

  /** A page load is `init` on a manager freshly built from storage. */
  lemma PageLoadIsInit(storage: Storage, v: Visit, mode: SmartlinkCall)
    ensures var w := World(NewManager(storage, v.env.now), v.page, storage, []);
      && PageLoad(storage, v, mode) == Init(w, v.fetched, v.baitHeight, v.env, mode)
      && (StoredOpened(storage) ==> w.manager.session.smartlinkOpened)
  {
  }

  lemma NoSmartlinkBelowPopunder(rs: seq<Request>)
    requires RanksAtMost(rs, Rank(Popunder))
    ensures forall i :: 0 <= i < |rs| ==> rs[i].from != Smartlink
  {
    forall i | 0 <= i < |rs| ensures rs[i].from != Smartlink {
      assert Rank(rs[i].from) <= Rank(Popunder);
    }
  }

  // ---------------------------------------------------------------------
  // How often the smartlink opens in one session
  // ---------------------------------------------------------------------

  /** The number of smartlink windows among `rs`. */
  function SmartlinkWindows(rs: seq<Request>): (n: nat)
    ensures n <= |rs|
    ensures n == 0 <==> forall i :: 0 <= i < |rs| ==> rs[i].from != Smartlink
  {
    if rs == [] then 0
    else SmartlinkWindows(rs[..|rs| - 1]) + (if rs[|rs| - 1].from == Smartlink then 1 else 0)
  }

  /** After the banners, the tail requests one smartlink window when the
      smartlink is due and none otherwise. */
  lemma LoadTailWindows(w: World, cfg: Config, env: Env, mode: SmartlinkCall)
    requires InFixedOrder(w.requests) && RanksAtMost(w.requests, Rank(PageBottom))
    ensures SmartlinkWindows(LoadTail(w, cfg, env, mode).requests) ==
      if SmartlinkDue(cfg, w.manager.session) then 1 else 0
  {
    RanksWiden(w.requests, Rank(PageBottom), Rank(SocialBar));
    var w6 := LoadSocialBar(w, cfg, env);
    AppendInOrder(w, w6, SocialBar);
    RanksWiden(w6.requests, Rank(SocialBar), Rank(Popunder));
    var w7 := LoadPopunder(w6, cfg, env);
    AppendInOrder(w6, w7, Popunder);
    var w8 := LoadSmartlink(w7, cfg, env, mode);
    assert LoadTail(w, cfg, env, mode) == w8;
    assert w7.manager.session.smartlinkOpened == w.manager.session.smartlinkOpened;
    if |w8.requests| == |w7.requests| + 1 {
      assert w8.requests[..|w8.requests| - 1] == w7.requests;
    } else {
      assert w8.requests == w7.requests;
    }
  }

  /** `loadAllAds` requests one smartlink window exactly when every banner
      slot completes and the smartlink is due. */
  lemma LoadAllAdsWindows(w: World, cfg: Config, env: Env, mode: SmartlinkCall)
    requires w.requests == []
    ensures var r := LoadAllAds(w, cfg, env, mode);
      SmartlinkWindows(r.world.requests) == if r.completed && SmartlinkDue(cfg, w.manager.session) then 1 else 0
  {
    var w1 := LoadNativeBanner(w, cfg);
    AppendInOrder(w, w1, NativeBanner);
    var r5 := LoadBanners(w1, cfg, env);
    LoadBannersInOrder(w1, cfg, env);
    var r := LoadAllAds(w, cfg, env, mode);
    if r5.completed {
      LoadTailWindows(r5.world, cfg, env, mode);
      assert r5.world.manager.session == w.manager.session;
      assert r == Run(LoadTail(r5.world, cfg, env, mode), true);
    } else {
      assert r == r5;
      assert SmartlinkWindows(r5.world.requests) == 0;
    }
  }

  /** The page load reaches the smartlink step: the configuration is
      fetched, the gate stays open and no banner slot throws. */
  predicate ReachesTail(v: Visit) {
    v.fetched.Some? && !GateCloses(v.fetched.value, v.baitHeight) && BannersComplete(v.fetched.value)
  }

  /** An enabled smartlink that opens in a new tab. */
  predicate NewTabSmartlink(cfg: Config) {
    cfg.smartlink.Some? && cfg.smartlink.value.enabled && cfg.smartlink.value.openInNewTab
  }

  /** One page load requests one smartlink window when it reaches the
      smartlink step with the smartlink due for the stored session, and none
      otherwise. */
  lemma PageLoadWindows(storage: Storage, v: Visit, mode: SmartlinkCall)
    ensures SmartlinkWindows(PageLoad(storage, v, mode).world.requests) ==
      if ReachesTail(v) && SmartlinkDue(v.fetched.value, GetSessionData(storage, v.env.now)) then 1 else 0
  {
    var w := World(NewManager(storage, v.env.now), v.page, storage, []);
    if v.fetched.Some? && !GateCloses(v.fetched.value, v.baitHeight) {
      LoadAllAdsWindows(w.(manager := w.manager.(config := v.fetched)), v.fetched.value, v.env, mode);
    }
  }

  /** The smartlink windows requested over a sequence of page loads. */
  function SessionWindows(storage: Storage, vs: seq<Visit>, mode: SmartlinkCall): nat
    decreases |vs|
  {
    if vs == [] then 0
    else
      var r := PageLoad(storage, vs[0], mode);
      SmartlinkWindows(r.world.requests) + SessionWindows(r.world.storage, vs[1..], mode)
  }

  /** The smartlink windows that actually open during one page load: the
      browser opens a requested window only when it allows the popup, with
      or without `noopener`. */
  function OpenedWindows(v: Visit, r: InitResult): (n: nat)
    ensures n <= SmartlinkWindows(r.world.requests)
    ensures n == SmartlinkWindows(r.world.requests) <==> v.env.popupAllowed || SmartlinkWindows(r.world.requests) == 0
  {
    if v.env.popupAllowed then SmartlinkWindows(r.world.requests) else 0
  }

  /** The smartlink windows that actually open over a sequence of page
      loads. */
  function SessionOpened(storage: Storage, vs: seq<Visit>, mode: SmartlinkCall): nat
    decreases |vs|
  {
    if vs == [] then 0
    else
      var r := PageLoad(storage, vs[0], mode);
      OpenedWindows(vs[0], r) + SessionOpened(r.world.storage, vs[1..], mode)
  }

  /** The number of visits whose browser allows popups. */
  function AllowedLoads(vs: seq<Visit>): nat {
    if vs == [] then 0 else (if vs[0].env.popupAllowed then 1 else 0) + AllowedLoads(vs[1..])
  }

  /** As written, no sequence of page loads ever stores the smartlink as
      opened. */
  lemma {:induction false} SmartlinkNeverRecorded(storage: Storage, vs: seq<Visit>)
    requires !StoredOpened(storage)
    ensures !StoredOpened(PageLoads(storage, vs, WithNoopener))
    decreases |vs|
  {
    if vs != [] {
      SmartlinkNeverRecorded(PageLoad(storage, vs[0], WithNoopener).world.storage, vs[1..]);
    }
  }

  /** As written, a page load that reaches the smartlink step with an
      enabled new-tab smartlink, in a session without the flag stored,
      requests one window and leaves the flag unstored. */
  lemma PageLoadOpensAsWritten(storage: Storage, v: Visit)
    requires !StoredOpened(storage)
    requires ReachesTail(v) && NewTabSmartlink(v.fetched.value)
    ensures var r := PageLoad(storage, v, WithNoopener);
      SmartlinkWindows(r.world.requests) == 1 && !StoredOpened(r.world.storage)
  {
    PageLoadWindows(storage, v, WithNoopener);
    SmartlinkNeverRecorded(storage, [v]);
    assert PageLoads(storage, [v], WithNoopener) == PageLoad(storage, v, WithNoopener).world.storage;
  }

  /** As written, every page load of a session that reaches the smartlink
      step with an enabled new-tab smartlink calls `window.open`, whatever
      the frequency: a session of `n` such page loads requests `n` windows,
      and every one of them whose browser allows popups opens. */
  lemma {:induction false} SmartlinkOpensEveryLoad(storage: Storage, vs: seq<Visit>)
    requires !StoredOpened(storage)
    requires forall i :: 0 <= i < |vs| ==> ReachesTail(vs[i]) && NewTabSmartlink(vs[i].fetched.value)
    ensures SessionWindows(storage, vs, WithNoopener) == |vs|
    ensures SessionOpened(storage, vs, WithNoopener) == AllowedLoads(vs)
    decreases |vs|
  {
    if vs != [] {
      var r := PageLoad(storage, vs[0], WithNoopener);
      PageLoadOpensAsWritten(storage, vs[0]);
      assert forall i :: 0 <= i < |vs[1..]| ==> ReachesTail(vs[1..][i]) && NewTabSmartlink(vs[1..][i].fetched.value) by {
        forall i | 0 <= i < |vs[1..]| ensures ReachesTail(vs[1..][i]) && NewTabSmartlink(vs[1..][i].fetched.value) {
          assert vs[1..][i] == vs[i + 1];
        }
      }
      SmartlinkOpensEveryLoad(r.world.storage, vs[1..]);
    }
  }

  /** The visit's smartlink, if it has one, is configured once per session. */
  predicate OncePerSessionSmartlink(v: Visit) {
    || v.fetched.None? || v.fetched.value.smartlink.None?
    || v.fetched.value.smartlink.value.frequency == Some(OncePerSession)
  }

  /** With the corrected `window.open` call, a page load requests at most
      one smartlink window and opens none once the session has one stored; a
      window that opens is stored, and the flag is stored only when a window
      did open: a popup-blocked attempt leaves it unset. */
  lemma PageLoadOpensOnce(storage: Storage, v: Visit)
    requires OncePerSessionSmartlink(v)
    ensures var r := PageLoad(storage, v, WithoutNoopener);
      && SmartlinkWindows(r.world.requests) <= 1
      && (StoredOpened(storage) ==> SmartlinkWindows(r.world.requests) == 0 && StoredOpened(r.world.storage))
      && (OpenedWindows(v, r) == 1 ==> StoredOpened(r.world.storage))
      && (!StoredOpened(storage) && StoredOpened(r.world.storage) ==> OpenedWindows(v, r) == 1)
  {
    PageLoadWindows(storage, v, WithoutNoopener);
  }

  /** With the corrected `window.open` call, a once-per-session smartlink
      opens at most one window in a session, and none once the session has
      it stored. */
  lemma {:induction false} SmartlinkAtMostOncePerSession(storage: Storage, vs: seq<Visit>)
    requires forall i :: 0 <= i < |vs| ==> OncePerSessionSmartlink(vs[i])
    ensures SessionOpened(storage, vs, WithoutNoopener) <= if StoredOpened(storage) then 0 else 1
    decreases |vs|
  {
    if vs != [] {
      var r := PageLoad(storage, vs[0], WithoutNoopener);
      PageLoadOpensOnce(storage, vs[0]);
      assert forall i :: 0 <= i < |vs[1..]| ==> OncePerSessionSmartlink(vs[1..][i]) by {
        forall i | 0 <= i < |vs[1..]| ensures OncePerSessionSmartlink(vs[1..][i]) {
          assert vs[1..][i] == vs[i + 1];
        }
      }
      SmartlinkAtMostOncePerSession(r.world.storage, vs[1..]);
    }
  }

  // ---------------------------------------------------------------------
  // Script de-duplication and teardown
  // ---------------------------------------------------------------------

  /** Once the social-bar script has loaded, loading the social bar again
      requests nothing. */
  lemma SocialBarLoadsOnce(w: World, cfg: Config, env: Env)
    requires cfg.socialBar.Some? && TruthyString(cfg.socialBar.value.script)
    requires cfg.socialBar.value.script.value in env.loads
    ensures var once := LoadSocialBar(w, cfg, env);
      LoadSocialBar(once, cfg, env) == once
  {
  }

  /** `destroy` forgets the loaded set, so an enabled social bar is requested
      again afterwards. */
  lemma DestroyForgetsLoadedScripts(w: World, cfg: Config, env: Env)
    requires cfg.socialBar.Some? && cfg.socialBar.value.enabled
    requires TruthyString(cfg.socialBar.value.script)
    ensures var r := LoadSocialBar(w.(manager := Destroy(w.manager)), cfg, env);
      r.requests == w.requests + [ScriptTag(SocialBar, cfg.socialBar.value.script.value)]
  {
  }

  /** Every popunder request is for a URL that was not in the loaded set, and
      a URL joins the set only if it was requested and loaded. */
  lemma PopunderSkipsLoaded(w: World, cfg: Config, env: Env)
    ensures var r := LoadPopunder(w, cfg, env);
      && (forall i :: |w.requests| <= i < |r.requests| ==> r.requests[i].url !in w.manager.loadedScripts)
      && (forall u :: u in r.manager.loadedScripts && u !in w.manager.loadedScripts ==>
            u in env.loads && (exists i :: |w.requests| <= i < |r.requests| && r.requests[i] == ScriptTag(Popunder, u)))
  {
    var r := LoadPopunder(w, cfg, env);
    if r != w {
      var p := cfg.popunder.value;
      var pending := Unloaded(p.scripts.value, w.manager.loadedScripts);
      forall i | |w.requests| <= i < |r.requests| ensures r.requests[i].url !in w.manager.loadedScripts {
        assert r.requests[i] == PopunderTags(pending)[i - |w.requests|];
      }
      forall u | u in r.manager.loadedScripts && u !in w.manager.loadedScripts
        ensures u in env.loads && (exists i :: |w.requests| <= i < |r.requests| && r.requests[i] == ScriptTag(Popunder, u))
      {
        var k :| 0 <= k < |pending| && pending[k] == u;
        assert r.requests[|w.requests| + k] == PopunderTags(pending)[k];
      }
    }
  }

  /** Loading the native banner a second time changes nothing. */
  lemma NativeBannerOnce(w: World, cfg: Config)
    ensures LoadNativeBanner(LoadNativeBanner(w, cfg), cfg) == LoadNativeBanner(w, cfg)
  {
  }
}

=== FILE: js.dfy ===
/** The JavaScript value conventions both scripts lean on: a configuration
    property that may be missing, and the `||` and `??` operators that
    supply a default for it. */
module Js {

  /** A property that may be absent (`undefined` or `null`). */
  datatype Option<+T> = None | Some(value: T)

  /** A number is falsy when it is missing or 0 (NaN is not modelled). */
  predicate TruthyNumber(x: Option<int>) {
    x.Some? && x.value != 0
  }

  /** A string is falsy when it is missing or empty. */
  predicate TruthyString(x: Option<string>) {
    x.Some? && x.value != ""
  }

  /** `x || d` on a number-valued property. */
  function OrNumber(x: Option<int>, d: int): int {
    if TruthyNumber(x) then x.value else d
  }

  /** `x || d` on a string-valued property. */
  function OrString(x: Option<string>, d: string): string {
    if TruthyString(x) then x.value else d
  }

  /** `x ?? d` on a boolean property: only a missing value takes the default,
      an explicit `false` is kept. */
  function Nullish(x: Option<bool>, d: bool): bool {
    if x.Some? then x.value else d
  }
}

=== FILE: mobile_ad_scaler.dfy ===
/** `MobileAdScaler`: the ad-element classifier, wrapping an ad element in a
    `.mobile-ad-wrapper` div, the mobile width guard, and the once-only
    `init`. The document is a tree of elements; an element is addressed by
    the path of child indexes from the document element, and an invalid path
    stands for a null element. */
module MobileAdScaler {
  import opened Js
  import opened Strings

  const MobileMaxWidth: int := 768
  const WrapperClass: string := "mobile-ad-wrapper"

  /** `window.innerWidth <= 768`. */
  predicate IsMobileWidth(innerWidth: int) {
    innerWidth <= MobileMaxWidth
  }

  /** An element: its tag, its `src`, `id` and `className` properties (empty
      when absent), whether the inline styles of `applyMobileFixes` have been
      set on it, and its element children in order. */
  datatype Node = Node(tag: string, src: string, id: string, className: string, fixed: bool, children: seq<Node>)

  // ---------------------------------------------------------------------
  // Classification
  // ---------------------------------------------------------------------

  /** The source's `ads` test is subsumed by its `ad` test. */
  lemma AdsContainsAd(s: string)
    ensures Contains(s, "ads") ==> Contains(s, "ad")
  {
    if Contains(s, "ads") {
      assert "ads" == "ad" + "s";
      ContainsPrefixOf(s, "ad", "s");
    }
  }

  /** `isAdElement`: six substring tests over `src`, `id` and `className`.
      The `'ads'` test is subsumed by the `'ad'` test, so an element is an ad
      exactly when one of the five remaining tests holds. */
  function IsAdElement(src: string, id: string, className: string): (b: bool)
    ensures b <==>
      || Contains(src, "ad")
      || Contains(id, "ad") || Contains(id, "banner")
      || Contains(className, "adsbygoogle") || Contains(className, "ad-")
  {
    AdsContainsAd(src);
    || Contains(src, "ads")
    || Contains(src, "ad")
    || Contains(id, "ad")
    || Contains(id, "banner")
    || Contains(className, "adsbygoogle")
    || Contains(className, "ad-")
  }

  /** Adding text before or after any of the three strings keeps an ad
      element an ad element. */
  lemma IsAdElementExtended(src: string, id: string, className: string,
                            a1: string, b1: string, a2: string, b2: string, a3: string, b3: string)
    requires IsAdElement(src, id, className)
    ensures IsAdElement(a1 + src + b1, a2 + id + b2, a3 + className + b3)
  {
    if Contains(src, "ads") { ContainsExtended(a1, src, b1, "ads"); }
    if Contains(src, "ad") { ContainsExtended(a1, src, b1, "ad"); }
    if Contains(id, "ad") { ContainsExtended(a2, id, b2, "ad"); }
    if Contains(id, "banner") { ContainsExtended(a2, id, b2, "banner"); }
    if Contains(className, "adsbygoogle") { ContainsExtended(a3, className, b3, "adsbygoogle"); }
    if Contains(className, "ad-") { ContainsExtended(a3, className, b3, "ad-"); }
  }

  /** The wrapper div is itself classified as an ad (its class contains
      `ad-`), so the observer hands it to `wrapAdElement`; the wrap lemmas
      below show that this is a no-op. */
  lemma WrapperIsAdElement(child: Node)
    ensures var w := NewWrapper(child); IsAdElement(w.src, w.id, w.className)
  {
    assert OccursAt(WrapperClass, "ad-", 7);
  }

  // ---------------------------------------------------------------------
  // Class tokens and paths
  // ---------------------------------------------------------------------

  /** ASCII whitespace, which separates the entries of a class attribute. */
  predicate IsHtmlSpace(c: char) {
    c == ' ' || c == '\t' || c == '\n' || c == '\r' || c == '\U{000C}'
  }

  /** `token` occurs at offset `i` of `className` as a whole entry. */
  predicate ClassTokenAt(className: string, token: string, i: int) {
    && OccursAt(className, token, i)
    && (i == 0 || IsHtmlSpace(className[i - 1]))
    && (i + |token| == |className| || IsHtmlSpace(className[i + |token|]))
  }

  /** The element matches the selector `.<token>`. */
  predicate HasClass(className: string, token: string) {
    exists i :: 0 <= i <= |className| - |token| && ClassTokenAt(className, token, i)
  }

  predicate IsWrapper(n: Node) {
    HasClass(n.className, WrapperClass)
  }

  /** The div `wrapAdElement` creates around `child`. */
  function NewWrapper(child: Node): (w: Node)
    ensures IsWrapper(w) && w.children == [child]
  {
    var w := Node("div", "", "", WrapperClass, false, [child]);
    assert ClassTokenAt(w.className, WrapperClass, 0);
    w
  }

  /** The element at path `p`, or `None` when the path leaves the tree. */
  function At(t: Node, p: seq<nat>): Option<Node>
    decreases |p|
  {
    if p == [] then Some(t)
    else if p[0] < |t.children| then At(t.children[p[0]], p[1..])
    else None
  }

  /** `element.closest('.mobile-ad-wrapper')` is not null: the element or
      one of its ancestors is a wrapper. */
  function InsideWrapper(t: Node, p: seq<nat>): (b: bool)
    ensures IsWrapper(t) ==> b
    ensures At(t, p).Some? && IsWrapper(At(t, p).value) ==> b
  {
    assert p[..0] == [] && p[..|p|] == p;
    exists k :: 0 <= k <= |p| && At(t, p[..k]).Some? && IsWrapper(At(t, p[..k]).value)
  }

  /** `t` with the subtree at path `p` replaced by `n`. */
  function ReplaceAt(t: Node, p: seq<nat>, n: Node): Node
    decreases |p|
  {
    if p == [] then n
    else if p[0] < |t.children| then t.(children := t.children[p[0] := ReplaceAt(t.children[p[0]], p[1..], n)])
    else t
  }

  // ---------------------------------------------------------------------
  // applyMobileFixes and wrapAdElement
  // ---------------------------------------------------------------------

  /** `applyMobileFixes`: sets the element's inline styles on mobile only. */
  function ApplyMobileFixes(n: Node, isMobile: bool): (r: Node)
    ensures r.(fixed := n.fixed) == n
    ensures r.fixed <==> n.fixed || isMobile
  {
    if isMobile then n.(fixed := true) else n
  }

  /** `wrapAdElement` on the element at path `p`: unless the element is null,
      is or sits inside a wrapper, or is the document element (whose parent
      is not an element, so the insertion throws), put a new wrapper at its
      index and move it, with the mobile fixes applied, into the wrapper. */
  function WrapAt(t: Node, p: seq<nat>, isMobile: bool): (r: Node)
    ensures r.(children := t.children) == t && |r.children| == |t.children|
    ensures At(t, p).None? ==> r == t
    decreases |p|
  {
    if p == [] || IsWrapper(t) || p[0] >= |t.children| then t
    else
      var i := p[0];
      var c := t.children[i];
      if |p| == 1 then
        assert At(t, p) == At(c, []) by { assert p[1..] == []; }
        if IsWrapper(c) then t
        else t.(children := t.children[..i] + [NewWrapper(ApplyMobileFixes(c, isMobile))] + t.children[i + 1..])
      else
        t.(children := t.children[i := WrapAt(c, p[1..], isMobile)])
  }

  /** A path one step down from the root. */
  lemma AtCons(t: Node, k: nat, q: seq<nat>)
    requires k < |t.children|
    ensures At(t, [k] + q) == At(t.children[k], q)
  {
  }

  /** Whether `wrapAdElement` acts on the element at `p`. */
  predicate Wraps(t: Node, p: seq<nat>) {
    |p| >= 1 && At(t, p).Some? && !InsideWrapper(t, p)
  }

  /** Wrapping a null element, the document element, or an element that is
      or sits inside a wrapper changes nothing. */
  lemma {:induction false} WrapNoOp(t: Node, p: seq<nat>, isMobile: bool)
    requires !Wraps(t, p)
    ensures WrapAt(t, p, isMobile) == t
    decreases |p|
  {
    if p != [] && !IsWrapper(t) && p[0] < |t.children| {
      var c := t.children[p[0]];
      AtCons(t, p[0], p[1..]);
      assert p == [p[0]] + p[1..];
      if |p| == 1 {
        assert At(t, p) == Some(c);
        var k :| 0 <= k <= |p| && At(t, p[..k]).Some? && IsWrapper(At(t, p[..k]).value);
        assert p[..k] == [] || p[..k] == p;
        assert IsWrapper(c);
      } else {
        if At(t, p).Some? {
          var k :| 0 <= k <= |p| && At(t, p[..k]).Some? && IsWrapper(At(t, p[..k]).value);
          assert k != 0;
          assert p[..k] == [p[0]] + p[1..][..k - 1];
          AtCons(t, p[0], p[1..][..k - 1]);
          assert InsideWrapper(c, p[1..]);
        }
        WrapNoOp(c, p[1..], isMobile);
      }
    }
  }

  /** The parent of the element at `p`, rebuilt with the wrapper at the
      element's index. */
  function WrappedParent(t: Node, p: seq<nat>, isMobile: bool): Node
    requires Wraps(t, p)
  {
    AtParent(t, p);
    var parent := At(t, p[..|p| - 1]).value;
    var i := p[|p| - 1];
    parent.(children := parent.children[..i] + [NewWrapper(ApplyMobileFixes(At(t, p).value, isMobile))] + parent.children[i + 1..])
  }

  /** The rebuilt parent holds the wrapper at the element's index and every
      other sibling where it was. */
  lemma WrappedParentShape(t: Node, p: seq<nat>, isMobile: bool)
    requires Wraps(t, p)
    ensures var np := WrappedParent(t, p, isMobile);
      var siblings := Siblings(t, p);
      var i := p[|p| - 1];
      && |np.children| == |siblings|
      && np.children[i] == NewWrapper(ApplyMobileFixes(At(t, p).value, isMobile))
      && (forall j :: 0 <= j < |siblings| && j != i ==> np.children[j] == siblings[j])
  {
    AtParent(t, p);
  }

  /** The children of the element's parent, the element included. */
  function Siblings(t: Node, p: seq<nat>): (cs: seq<Node>)
    requires Wraps(t, p)
    ensures p[|p| - 1] < |cs| && cs[p[|p| - 1]] == At(t, p).value
  {
    AtParent(t, p);
    At(t, p[..|p| - 1]).value.children
  }

  /** The parent of a present element is present and holds it at the last
      index of its path. */
  lemma {:induction false} AtParent(t: Node, p: seq<nat>)
    requires |p| >= 1 && At(t, p).Some?
    ensures At(t, p[..|p| - 1]).Some?
    ensures p[|p| - 1] < |At(t, p[..|p| - 1]).value.children|
    ensures At(t, p[..|p| - 1]).value.children[p[|p| - 1]] == At(t, p).value
    decreases |p|
  {
    AtCons(t, p[0], p[1..]);
    assert p == [p[0]] + p[1..];
    if |p| > 1 {
      AtParent(t.children[p[0]], p[1..]);
      assert p[..|p| - 1] == [p[0]] + p[1..][..|p[1..]| - 1];
      AtCons(t, p[0], p[1..][..|p[1..]| - 1]);
    }
  }

  /** When it acts, `wrapAdElement` replaces exactly the element's parent:
      the parent's children are its old children with the element's slot
      taken by a wrapper whose only child is the (fixed) element. */
  lemma {:induction false} WrapReplacesParent(t: Node, p: seq<nat>, isMobile: bool)
    requires Wraps(t, p)
    ensures WrapAt(t, p, isMobile) == ReplaceAt(t, p[..|p| - 1], WrappedParent(t, p, isMobile))
    decreases |p|
  {
    AtCons(t, p[0], p[1..]);
    assert p == [p[0]] + p[1..];
    assert !IsWrapper(t) by { assert p[..0] == []; }
    var c := t.children[p[0]];
    if |p| == 1 {
      assert p[..1] == p;
      assert p[..|p| - 1] == [];
    } else {
      var q := p[1..];
      assert !InsideWrapper(c, q) by {
        if InsideWrapper(c, q) {
          var k :| 0 <= k <= |q| && At(c, q[..k]).Some? && IsWrapper(At(c, q[..k]).value);
          assert p[..k + 1] == [p[0]] + q[..k];
          AtCons(t, p[0], q[..k]);
        }
      }
      WrapReplacesParent(c, q, isMobile);
      assert p[..|p| - 1] == [p[0]] + q[..|q| - 1];
      AtCons(t, p[0], q[..|q| - 1]);
      AtCons(t, p[0], q);
      assert ([p[0]] + q[..|q| - 1])[1..] == q[..|q| - 1];
      assert p[|p| - 1] == q[|q| - 1];
    }
  }

  /** A subtree replacement is visible at its path. */
  lemma {:induction false} AtReplaceAt(t: Node, q: seq<nat>, n: Node)
    requires At(t, q).Some?
    ensures At(ReplaceAt(t, q, n), q) == Some(n)
    decreases |q|
  {
    if q != [] {
      AtCons(t, q[0], q[1..]);
      assert q == [q[0]] + q[1..];
      AtReplaceAt(t.children[q[0]], q[1..], n);
      AtCons(ReplaceAt(t, q, n), q[0], q[1..]);
    }
  }

  /** After wrapping: the wrapper sits at the element's former index, the
      element (with the mobile fixes applied) is its only child, and every
      other sibling keeps its position. */
  lemma WrapPlacesWrapper(t: Node, p: seq<nat>, isMobile: bool)
    requires Wraps(t, p)
    ensures var r := WrapAt(t, p, isMobile);
      var q := p[..|p| - 1];
      var i := p[|p| - 1];
      var siblings := Siblings(t, p);
      && At(r, q).Some?
      && |At(r, q).value.children| == |siblings|
      && At(r, p) == Some(NewWrapper(ApplyMobileFixes(At(t, p).value, isMobile)))
      && At(r, p + [0]) == Some(ApplyMobileFixes(At(t, p).value, isMobile))
      && At(r, p).value.children == [ApplyMobileFixes(At(t, p).value, isMobile)]
      && (forall j :: 0 <= j < |siblings| && j != i ==> At(r, q).value.children[j] == siblings[j])
  {
    var q := p[..|p| - 1];
    var i := p[|p| - 1];
    AtParent(t, p);
    var np := WrappedParent(t, p, isMobile);
    WrappedParentShape(t, p, isMobile);
    WrapReplacesParent(t, p, isMobile);
    var r := WrapAt(t, p, isMobile);
    AtReplaceAt(t, q, np);
    assert At(r, q) == Some(np);
    assert p == q + [i];
    AtAppend(r, q, i);
    AtAppend(r, p, 0);
  }

  /** One step past the end of a path. */
  lemma {:induction false} AtAppend(t: Node, q: seq<nat>, i: nat)
    requires At(t, q).Some? && i < |At(t, q).value.children|
    ensures At(t, q + [i]) == Some(At(t, q).value.children[i])
    decreases |q|
  {
    if q == [] {
      assert q + [i] == [i];
      assert At(t, [i]) == At(t.children[i], []);
    } else {
      AtCons(t, q[0], q[1..]);
      assert q == [q[0]] + q[1..];
      assert q + [i] == [q[0]] + (q[1..] + [i]);
      AtCons(t, q[0], q[1..] + [i]);
      AtAppend(t.children[q[0]], q[1..], i);
    }
  }

  /** Where the element that was at `p` is after `wrapAdElement`. */
  function MovedTo(t: Node, p: seq<nat>): seq<nat> {
    if Wraps(t, p) then p + [0] else p
  }

  /** Wrapping twice equals wrapping once: a second call on the same element
      (now inside the wrapper) and a call on whatever sits at the old index
      (the wrapper itself) both change nothing. */
  lemma WrapTwice(t: Node, p: seq<nat>, isMobile: bool)
    ensures var once := WrapAt(t, p, isMobile);
      && WrapAt(once, MovedTo(t, p), isMobile) == once
      && WrapAt(once, p, isMobile) == once
  {
    var once := WrapAt(t, p, isMobile);
    if Wraps(t, p) {
      WrapPlacesWrapper(t, p, isMobile);
      var e := ApplyMobileFixes(At(t, p).value, isMobile);
      assert IsWrapper(At(once, p).value) by { assert At(once, p) == Some(NewWrapper(e)); }
      assert p[..|p|] == p;
      assert InsideWrapper(once, p);
      assert (p + [0])[..|p|] == p;
      assert InsideWrapper(once, p + [0]);
      WrapNoOp(once, p + [0], isMobile);
      WrapNoOp(once, p, isMobile);
    } else {
      WrapNoOp(t, p, isMobile);
    }
  }

  /** `wrapAdElement` changes the document exactly when it acts. */
  lemma WrapChanges(t: Node, p: seq<nat>, isMobile: bool)
    ensures WrapAt(t, p, isMobile) == t <==> !Wraps(t, p)
  {
    if Wraps(t, p) {
      WrapPlacesWrapper(t, p, isMobile);
      assert !IsWrapper(At(t, p).value);
      assert At(WrapAt(t, p, isMobile), p) != At(t, p);
    } else {
      WrapNoOp(t, p, isMobile);
    }
  }

  // ---------------------------------------------------------------------
  // The mutation observer
  // ---------------------------------------------------------------------

  /** The observer's handling of one added element at `p`: when it passes
      `isAdElement`, `wrapAdElement` runs on it once its 100 ms timer fires.
      The document changes exactly when the element is an ad that the wrap
      acts on, and then the element sits, fixed, inside a new wrapper. */
  function ObserveAdded(t: Node, p: seq<nat>, isMobile: bool): (r: Node)
    ensures r == t <==>
      !Wraps(t, p) || !IsAdElement(At(t, p).value.src, At(t, p).value.id, At(t, p).value.className)
    ensures r != t ==>
      && At(r, p).Some? && IsWrapper(At(r, p).value)
      && At(r, p + [0]) == Some(ApplyMobileFixes(At(t, p).value, isMobile))
      && At(r, p).value.children == [ApplyMobileFixes(At(t, p).value, isMobile)]
    ensures r != t ==> r == WrapAt(t, p, isMobile)
  {
    if At(t, p).Some? && IsAdElement(At(t, p).value.src, At(t, p).value.id, At(t, p).value.className) then
      WrapChanges(t, p, isMobile);
      if Wraps(t, p) then
        WrapPlacesWrapper(t, p, isMobile);
        WrapAt(t, p, isMobile)
      else t
    else t
  }

  /** The wrap's own insertions are reported to the observer as added nodes:
      the wrapper (itself an ad element) and the element it moved. Handling
      either changes nothing. */
  lemma ObserverIgnoresOwnWrap(t: Node, p: seq<nat>, isMobile: bool)
    requires Wraps(t, p)
    ensures var once := WrapAt(t, p, isMobile);
      ObserveAdded(once, p, isMobile) == once && ObserveAdded(once, p + [0], isMobile) == once
  {
    var once := WrapAt(t, p, isMobile);
    WrapTwice(t, p, isMobile);
    WrapChanges(once, p, isMobile);
    WrapChanges(once, p + [0], isMobile);
  }

  // ---------------------------------------------------------------------
  // processAllAds
  // ---------------------------------------------------------------------

  /** Apply the mobile fixes to the first element child of every wrapper in
      the tree. */
  function FixWrapped(t: Node): (r: Node)
    ensures r.(children := t.children) == t && |r.children| == |t.children|
    decreases t
  {
    t.(children := seq(|t.children|, k requires 0 <= k < |t.children| =>
      var c := FixWrapped(t.children[k]);
      if k == 0 && IsWrapper(t) then ApplyMobileFixes(c, true) else c))
  }

  /** The element at `p` is the first element child of a wrapper. */
  predicate FirstChildOfWrapper(t: Node, p: seq<nat>) {
    && |p| >= 1 && p[|p| - 1] == 0
    && At(t, p[..|p| - 1]).Some? && IsWrapper(At(t, p[..|p| - 1]).value)
  }

  /** Everything of an element except its fixed flag and its children. */
  function Label(n: Node): Node {
    n.(fixed := false, children := [])
  }

  /** `FixWrapped` keeps the tree's shape and every element's properties, and
      an element ends up fixed exactly when it was fixed already or is the
      first child of a wrapper. */
  lemma {:induction false} FixWrappedAt(t: Node, p: seq<nat>)
    ensures At(FixWrapped(t), p).Some? <==> At(t, p).Some?
    ensures At(t, p).Some? ==>
      && Label(At(FixWrapped(t), p).value) == Label(At(t, p).value)
      && |At(FixWrapped(t), p).value.children| == |At(t, p).value.children|
      && (At(FixWrapped(t), p).value.fixed <==> At(t, p).value.fixed || FirstChildOfWrapper(t, p))
    decreases |p|
  {
    var r := FixWrapped(t);
    if p != [] && p[0] < |t.children| {
      var k := p[0];
      var q := p[1..];
      var c := t.children[k];
      assert p == [k] + q;
      AtCons(t, k, q);
      AtCons(r, k, q);
      var rc := r.children[k];
      assert rc.(fixed := FixWrapped(c).fixed) == FixWrapped(c);
      FixWrappedAt(c, q);
      if q == [] {
        assert p[..|p| - 1] == [];
      } else {
        assert At(rc, q) == At(FixWrapped(c), q);
        assert p[..|p| - 1] == [k] + q[..|q| - 1];
        AtCons(t, k, q[..|q| - 1]);
        assert FirstChildOfWrapper(t, p) == FirstChildOfWrapper(c, q);
      }
    }
  }

  // ---------------------------------------------------------------------
  // Scaler state: constructor, init, processAllAds
  // ---------------------------------------------------------------------

  /** The instance fields and the global effects of `init`: style sheets
      added, whether the mutation observer is set up, resize listeners
      registered and pending scans of existing ads. */
  datatype Scaler = Scaler(
    isMobile: bool,
    initialized: bool,
    styleSheets: nat,
    observing: bool,
    resizeListeners: nat,
    pendingScans: nat)

  /** The constructor reads the viewport width once. */
  function NewScaler(innerWidth: int): (s: Scaler)
    ensures s.isMobile <==> innerWidth <= 768
    ensures !s.initialized && !s.observing
    ensures s.styleSheets == 0 && s.resizeListeners == 0 && s.pendingScans == 0
  {
    Scaler(IsMobileWidth(innerWidth), false, 0, false, 0, 0)
  }

  /** `init`: a second call returns at once; the first adds the style sheet,
      the observer, one resize listener and one scan, and sets the flag. */
  function InitScaler(s: Scaler): (r: Scaler)
    ensures s.initialized ==> r == s
    ensures !s.initialized ==>
      && r.initialized && r.observing && r.isMobile == s.isMobile
      && r.styleSheets == s.styleSheets + 1
      && r.resizeListeners == s.resizeListeners + 1
      && r.pendingScans == s.pendingScans + 1
  {
    if s.initialized then s
    else s.(initialized := true, styleSheets := s.styleSheets + 1, observing := true,
            resizeListeners := s.resizeListeners + 1, pendingScans := s.pendingScans + 1)
  }

  /** `n` calls of `init`. */
  function InitRepeated(s: Scaler, n: nat): Scaler
    decreases n
  {
    if n == 0 then s else InitRepeated(InitScaler(s), n - 1)
  }

  /** However often `init` is called, its setup happens once. */
  lemma {:induction false} InitOnce(s: Scaler, n: nat)
    requires n >= 1
    ensures InitRepeated(s, n) == InitScaler(s)
    decreases n
  {
    if n > 1 {
      InitOnce(InitScaler(s), n - 1);
    }
  }

  /** A scaler constructed for any width and initialised any number of times
      has added exactly one style sheet and one resize listener. */
  lemma InitSetupCounts(innerWidth: int, n: nat)
    requires n >= 1
    ensures var s := InitRepeated(NewScaler(innerWidth), n);
      s.styleSheets == 1 && s.resizeListeners == 1 && s.pendingScans == 1 && s.initialized
  {
    InitOnce(NewScaler(innerWidth), n);
  }

  datatype Processed = Processed(scaler: Scaler, tree: Node)

  /** `processAllAds`: re-read the width; on mobile, fix the first element
      child of every wrapper; otherwise leave the document alone. */
  function ProcessAllAds(s: Scaler, t: Node, innerWidth: int): (r: Processed)
    ensures r.scaler == s.(isMobile := innerWidth <= 768)
    ensures innerWidth > 768 ==> r.tree == t
  {
    var mobile := IsMobileWidth(innerWidth);
    Processed(s.(isMobile := mobile), if mobile then FixWrapped(t) else t)
  }

  /** On mobile, `processAllAds` touches only the fixed flags, and exactly of
      the first children of wrappers. */
  lemma ProcessAllAdsTouchesFirstChildren(s: Scaler, t: Node, innerWidth: int, p: seq<nat>)
    requires innerWidth <= 768 && At(t, p).Some?
    ensures var r := ProcessAllAds(s, t, innerWidth).tree;
      && At(r, p).Some?
      && Label(At(r, p).value) == Label(At(t, p).value)
      && (At(r, p).value.fixed <==> At(t, p).value.fixed || FirstChildOfWrapper(t, p))
  {
    FixWrappedAt(t, p);
  }

  /** `wrapAdElement` as an instance method: the fixes follow the flag the
      instance holds, so off mobile the moved element is left as it was. */
  lemma WrapOffMobileKeepsElement(t: Node, p: seq<nat>)
    requires Wraps(t, p)
    ensures At(WrapAt(t, p, false), p + [0]) == At(t, p)
  {
    WrapPlacesWrapper(t, p, false);
  }
}

=== FILE: strings.dfy ===
/** String operations the scripts perform: `String.prototype.includes`, the
    `/[^a-zA-Z0-9]/g` replacement and the decimal rendering of a number in a
    template literal. */
module Strings {

  /** `s.includes(t)`: `t` occurs in `s` at some offset; the empty string
      occurs in every string. */
  predicate Contains(s: string, t: string) {
    exists i :: 0 <= i <= |s| - |t| && OccursAt(s, t, i)
  }

  /** `t` occurs in `s` starting at offset `i`. */
  predicate OccursAt(s: string, t: string, i: int) {
    0 <= i <= |s| - |t| && s[i..i + |t|] == t
  }

  /** Contains is stable under adding text on either side. */
  lemma ContainsExtended(a: string, s: string, b: string, t: string)
    requires Contains(s, t)
    ensures Contains(a + s + b, t)
  {
    var i :| 0 <= i <= |s| - |t| && OccursAt(s, t, i);
    var u := a + s + b;
    assert u[|a| + i..|a| + i + |t|] == s[i..i + |t|];
    assert OccursAt(u, t, |a| + i);
  }

  /** A string that contains `t + v` contains `t`. */
  lemma ContainsPrefixOf(s: string, t: string, v: string)
    requires Contains(s, t + v)
    ensures Contains(s, t)
  {
    var i :| 0 <= i <= |s| - |t + v| && OccursAt(s, t + v, i);
    assert s[i..i + |t|] == (t + v)[..|t|];
    assert OccursAt(s, t, i);
  }

  /** The character class `[a-zA-Z0-9]`. */
  predicate IsAlnum(c: char) {
    ('a' <= c <= 'z') || ('A' <= c <= 'Z') || ('0' <= c <= '9')
  }

  /** The characters a sanitised identifier may contain: `[A-Za-z0-9_]`. */
  predicate IsWordChar(c: char) {
    IsAlnum(c) || c == '_'
  }

  predicate IsDigit(c: char) {
    '0' <= c <= '9'
  }

  /** `s.replace(/[^a-zA-Z0-9]/g, '_')`: every character outside the class
      becomes one underscore, every character inside it stays in place. */
  function Sanitize(s: string): (r: string)
    ensures |r| == |s|
    ensures forall i :: 0 <= i < |s| && IsAlnum(s[i]) ==> r[i] == s[i]
    ensures forall i :: 0 <= i < |s| && !IsAlnum(s[i]) ==> r[i] == '_'
  {
    if s == [] then []
    else [if IsAlnum(s[0]) then s[0] else '_'] + Sanitize(s[1..])
  }

  /** A sanitised string holds only `[A-Za-z0-9_]`. */
  lemma SanitizeWordChars(s: string)
    ensures forall i :: 0 <= i < |Sanitize(s)| ==> IsWordChar(Sanitize(s)[i])
  {
  }

  /** Sanitising leaves a string unchanged exactly when it already consists of
      `[A-Za-z0-9_]` only. */
  lemma SanitizeFixpoint(s: string)
    ensures Sanitize(s) == s <==> forall i :: 0 <= i < |s| ==> IsWordChar(s[i])
  {
  }

  /** Sanitising twice is sanitising once. */
  lemma SanitizeIdempotent(s: string)
    ensures Sanitize(Sanitize(s)) == Sanitize(s)
  {
  }

  function DigitChar(d: nat): char
    requires d < 10
  {
    "0123456789"[d]
  }

  function DigitValue(c: char): nat
    requires IsDigit(c)
  {
    (c - '0') as nat
  }

  /** The decimal digits of `n`, as a template literal renders an integer. */
  function NatToString(n: nat): (r: string)
    ensures |r| >= 1
    ensures forall i :: 0 <= i < |r| ==> IsDigit(r[i])
    ensures r[0] == '0' <==> n == 0
    ensures |r| == 1 || r[0] != '0'
    decreases n
  {
    if n < 10 then [DigitChar(n)] else NatToString(n / 10) + [DigitChar(n % 10)]
  }

  /** The value a string of decimal digits denotes. */
  function DigitsValue(s: string): nat
    requires forall i :: 0 <= i < |s| ==> IsDigit(s[i])
  {
    if s == [] then 0 else 10 * DigitsValue(s[..|s| - 1]) + DigitValue(s[|s| - 1])
  }

  /** The decimal rendering denotes the number it was made from. */
  lemma {:induction false} NatToStringValue(n: nat)
    ensures DigitsValue(NatToString(n)) == n
    decreases n
  {
    var r := NatToString(n);
    if n >= 10 {
      NatToStringValue(n / 10);
      assert r[..|r| - 1] == NatToString(n / 10);
    }
  }
}

=== FILE: vendor_options.dfy ===
/** The per-banner vendor options object (`window.atOptions_<zone>`) that
    `AdsManager.loadSimpleBanner` sets before it appends the vendor script. */
module VendorOptions {
  import opened Js
  import opened Strings

  /** The `config` bag of an ad unit; every field may be missing. */
  datatype VendorConfig = VendorConfig(
    key: Option<string>,
    format: Option<string>,
    height: Option<int>,
    width: Option<int>)

  /** One ad unit of a slot: the vendor script URL and its optional options bag. */
  datatype AdUnit = AdUnit(script: string, config: Option<VendorConfig>)

  /** The object stored under the global name; its `params` member is always
      the empty object and is not represented. */
  datatype AtOptions = AtOptions(key: string, format: string, height: int, width: int)

  const DefaultKey: string := ""
  const DefaultFormat: string := "iframe"
  const DefaultHeight: int := 90
  const DefaultWidth: int := 728

  const ZonePrefix: string := "invoke_"
  const OptionsPrefix: string := "atOptions_"

  /** `adConfig.config?.<field>`: a missing bag reads as a missing field. */
  function KeyOf(c: Option<VendorConfig>): Option<string> {
    if c.Some? then c.value.key else None
  }

  function FormatOf(c: Option<VendorConfig>): Option<string> {
    if c.Some? then c.value.format else None
  }

  function HeightOf(c: Option<VendorConfig>): Option<int> {
    if c.Some? then c.value.height else None
  }

  function WidthOf(c: Option<VendorConfig>): Option<int> {
    if c.Some? then c.value.width else None
  }

  /** The options object built for an ad unit's config bag: each field is the
      configured value when that value is truthy and the fixed default
      otherwise, so a zero height or an empty format falls back too. */
  function BuildOptions(c: Option<VendorConfig>): (o: AtOptions)
    ensures TruthyString(KeyOf(c)) ==> o.key == KeyOf(c).value
    ensures !TruthyString(KeyOf(c)) ==> o.key == ""
    ensures TruthyString(FormatOf(c)) ==> o.format == FormatOf(c).value
    ensures !TruthyString(FormatOf(c)) ==> o.format == "iframe"
    ensures TruthyNumber(HeightOf(c)) ==> o.height == HeightOf(c).value
    ensures !TruthyNumber(HeightOf(c)) ==> o.height == 90
    ensures TruthyNumber(WidthOf(c)) ==> o.width == WidthOf(c).value
    ensures !TruthyNumber(WidthOf(c)) ==> o.width == 728
    ensures o.height != 0 && o.width != 0 && o.format != ""
  {
    AtOptions(
      OrString(KeyOf(c), DefaultKey),
      OrString(FormatOf(c), DefaultFormat),
      OrNumber(HeightOf(c), DefaultHeight),
      OrNumber(WidthOf(c), DefaultWidth))
  }

  /** The config bag that spells out a built options object field by field. */
  function AsConfig(o: AtOptions): VendorConfig {
    VendorConfig(Some(o.key), Some(o.format), Some(o.height), Some(o.width))
  }

  /** Defaulting is idempotent: feeding a built options object back in as a
      config bag reproduces it, defaults included. */
  lemma BuildOptionsStable(c: Option<VendorConfig>)
    ensures BuildOptions(Some(AsConfig(BuildOptions(c)))) == BuildOptions(c)
  {
  }

  /** The zone id `invoke_<counter>_<timestamp>` given to a banner's ad div. */
  function ZoneId(counter: nat, now: nat): (z: string)
    ensures |z| > |ZonePrefix| && z[..|ZonePrefix|] == ZonePrefix
    ensures forall i :: 0 <= i < |z| ==> IsWordChar(z[i])
  {
    ZonePrefix + NatToString(counter) + "_" + NatToString(now)
  }

  /** The global variable name `atOptions_<zone>`, with every character of the
      zone id outside `[a-zA-Z0-9]` replaced by `_`. */
  function OptionsName(zoneId: string): (n: string)
    ensures |n| == |OptionsPrefix| + |zoneId|
    ensures n[..|OptionsPrefix|] == OptionsPrefix
    ensures forall i :: |OptionsPrefix| <= i < |n| ==> IsWordChar(n[i])
    ensures forall i :: 0 <= i < |zoneId| && IsAlnum(zoneId[i]) ==> n[|OptionsPrefix| + i] == zoneId[i]
    ensures forall i :: 0 <= i < |zoneId| && !IsAlnum(zoneId[i]) ==> n[|OptionsPrefix| + i] == '_'
  {
    OptionsPrefix + Sanitize(zoneId)
  }

  /** Naming is idempotent on its suffix: sanitising an id that was already
      sanitised yields the same global name. */
  lemma OptionsNameIdempotent(zoneId: string)
    ensures OptionsName(Sanitize(zoneId)) == OptionsName(zoneId)
  {
  }

  /** The zone ids the manager generates need no sanitising: the global name
      is the prefix followed by the zone id verbatim. */
  lemma OptionsNameOfZoneId(counter: nat, now: nat)
    ensures OptionsName(ZoneId(counter, now)) == OptionsPrefix + ZoneId(counter, now)
  {
  }
}
